=== FILE: README.md ===
# Smart security alerts: request handling, alert dispatch and the browser client

This project models the core of a small image-classification security
service. Users register and log in. They upload a photo, which a classifier
labels per category (traffic, fire, accident, violence), each label with a
risk level (low, medium, high, critical). The backend then decides which
results deserve an alert and sends them by e-mail and to emergency contacts.
A browser client holds the session token and talks to the backend.

The model has six modules:

- `Common` (`common.dfy`): an `Option` type; `FirstIndex`, which models a
  query's `.first()` over rows kept in insertion order; `Filter`; and the
  string helpers the sources rely on (last-dot search, ASCII lower-casing,
  decimal text).
- `Json` (`json.dfy`): decoded JSON values. It has Python and JavaScript
  truthiness (they differ on empty arrays and objects), `String(v)`, property
  reads where `None` stands for `undefined`, and the "whitelisted update"
  loop that the settings and category handlers share.
- `Alerts` (`alerts.dfy`): the alert manager of `backend/alerts.py`. It
  covers the Arabic lookup tables with their fall-backs, the alert
  threshold rule, the index of category settings by type, the
  emergency-contact pass and the whole alert pass over one classification.
- `Backend` (`backend.dfy`): validation and store updates of the route
  handlers in `backend/app.py`:
  - `allowed_file`;
  - register and login;
  - classify-image;
  - the settings update;
  - adding and updating a category;
  - token validation.

  The database is a `Store` of sequences in which a row's id is its
  position plus one. The upload limit (32 MiB) and the allowed extensions
  come from `backend/config.py:26-27`.
- `Client` (`client.dfy`): the `ApiClient` class of `frontend/js/api.js`.
  The state is the in-memory token plus the browser's durable storage.
  Every operation returns the new state, the request it sent and its
  outcome: a value, or a thrown error.
- `Session` (`session.dfy`): the client and the backend together. It shows
  what an upload built by the client makes the classification handler do.

Calls into code outside this core are function-typed parameters:
- the password hash and its check, and the access-token issuer;
- `secure_filename`;
- the e-mail sender, which returns a handle for a started send or nothing;
- the network (`Outgoing -> Transport`). `Client.Fetch` puts the browser's `fetch` in front of it: a request with a header value that is not a byte string (a character above U+00FF) throws a TypeError and is never sent.

The classifier's results are an input sequence. The user's settings row,
category rows and emergency contacts come from `backend/model.py`, which is
not part of this model. A settings row is modelled as the map of the fields
that were written explicitly; an absent field reads as the default the
handler passes to `.get`.

Three behaviours of the client's code are easy to miss:
- A 401 answer does not clear the token: the line that would do it is
  commented out (`UnauthorizedKeepsToken`).
- Without a stored token, a caller-supplied `Authorization` header is sent
  as given. Only the headers the client builds itself carry none
  (`NoTokenNoAuthorization`, `Prepare`).
- `setToken` with a falsy value removes the stored key, but it keeps that
  value (for example `""`) in memory.

## Model

| member | source | states |
|---|---|---|
| `Json.UpdateWhitelisted` | backend/app.py:526-528 | the updated row's keys are the old keys plus the whitelisted request keys; those take the request's value and every other key keeps its old one |
| `Alerts.CategoryArabicName` | backend/alerts.py:238-252 | the four categories get their Arabic names; any other category text is shown unchanged |
| `Alerts.RiskLevelArabic` | backend/alerts.py:254-268 | the four risk levels get their Arabic names; any other text is shown unchanged |
| `Alerts.ActionRecommendation` | backend/alerts.py:270-301 | a (category, class) pair listed in the table gets its advice; an unknown category or a class not listed under that category gets the generic advice |
| `Alerts.ActionRecommendationTabled` | backend/alerts.py:270-301 | the generic advice is given exactly when the table has no entry for the pair: no tabled advice repeats it |
| `Alerts.RiskColor` | backend/alerts.py:314-321 | each listed level gets its colour; an unknown level gets the neutral grey |
| `Alerts.AlertTitle` | backend/alerts.py:214 | the title is the fixed "alert" prefix followed by exactly the category's Arabic name |
| `Alerts.EveryRiskLevelIsTabled` | backend/alerts.py:254-321 | no risk level the classifier produces falls back to the raw name or to grey, and different levels get different colours |
| `Alerts.KnownCategoriesTitledApart` | backend/alerts.py:246-252 | each known category has a name of its own, and two different known categories never share an alert title |
| `Alerts.ShouldSendAlert` | backend/alerts.py:168-197 | an alert is sent iff the user's notifications are on, the category's alerts are on, and the result's risk rank reaches the threshold's minimum (high: high or critical; medium: not low; anything else: all) |
| `Alerts.ThresholdTable` | backend/alerts.py:186-193 | with both switches on: under "high" exactly the severe results alert; under "medium", or with no threshold set, all but low alert; any other threshold text alerts everything |
| `Alerts.ThresholdMonotone` | backend/alerts.py:188-191 | raising the threshold from medium to high never adds an alert |
| `Alerts.IndexCategories` | backend/alerts.py:454 | building the index by category type fails (and the alert pass returns nothing) exactly when some row lacks a type or has an unhashable one |
| `Alerts.IndexCategoriesKeys` | backend/alerts.py:454 | the index's keys are exactly the text category types occurring in the rows |
| `Alerts.IndexCategoriesLastWins` | backend/alerts.py:454 | when rows share a type, the index holds the last such row |
| `Alerts.LaterCategoryRowWins` | backend/alerts.py:454-459 | with two rows of one type, the second row's settings are the ones consulted |
| `Alerts.NotifyContacts` | backend/alerts.py:399-438 | one notice per contact that can receive alerts (absent flag means yes), in input order, each carrying the contact's name, "notification_prepared" and "success" |
| `Alerts.BuildAlert` | backend/alerts.py:461-486 | the record copies category, risk and confidence and carries the title; "email" is listed iff the category's e-mail alerts are on and the send started; "emergency_contacts" is listed iff the risk is high or critical, the user's contact switch is on and some contact can receive alerts; the notified list is present exactly then and holds the contact notices; "email" comes first |
| `Alerts.AlertsForKept` | backend/alerts.py:456-488 | the alerts are exactly one record per result that passes the rule, in input order, each built with that result's category settings |
| `Alerts.ProcessClassificationAlerts` | backend/alerts.py:440-494 | never more alerts than results; none at all when the category index cannot be built; otherwise one per passing result, in order, each exactly the record built from that result, the user's settings and the category row of its type |
| `Backend.AllowedFileCharacterization` | backend/app.py:54-62 | a file name is accepted iff it contains a dot and the text after its last dot, lower-cased, is one of png, jpg, jpeg, gif, bmp, tiff |
| `Backend.AllowedFileAccepts` | backend/app.py:54-62 | "a.JPG" and "x.tar.png" are accepted: case is ignored and only the last extension counts |
| `Backend.AllowedFileRefuses` | backend/app.py:54-62 | a bare "jpg" (no dot) and "a.png.exe" are refused |
| `Backend.Register` | backend/app.py:158-228 | 400 for a body decoding to null, false, 0, "", [] or {}, or for a missing field (checked before uniqueness); 500 for a non-object body, for a list or object e-mail or username (the query raises) and for a non-text password (hashing raises); 409 when the e-mail, or else the username, is taken; 201 iff the body is complete, bindable, has a text password and neither e-mail nor username is taken; on 201 the new active user is appended with the hashed password, four categories follow with the fixed types and priorities, and the reply names the new id and the count 4; nothing changes otherwise |
| `Backend.Login` | backend/app.py:230-283 | 400 for a body decoding to null, false, 0, "", [] or {}, or for a missing field; 500 for a non-object body, a list or object e-mail, or a non-text password checked against a found account; 401 when no account has the e-mail; for the first account with it: 401 on a wrong password, 403 iff the password matches and the account is inactive, 200 iff it matches and the account is active, with that account's token and success true; the store never changes |
| `Backend.AccountFor` | backend/app.py:251 | the account a query by e-mail finds is the first one with that e-mail, and none is found iff no account has it |
| `Backend.RegisterThenLogin` | backend/app.py:187-277 | after a successful registration, logging in with the same body succeeds and returns the new account's token, for any hash/check pair that accepts a password against its own hash |
| `Backend.LoginTokenValidates` | backend/app.py:253-277 | the token a successful login hands out names an account that token validation reports as active |
| `Backend.RegisterThenValidate` | backend/app.py:631-639 | right after a successful registration the new id validates as an active account |
| `Backend.ClassifyImage` | backend/app.py:285-406 | checks run in order: 404 iff the user is unknown; empty upload 400; 413 iff the user exists and the upload is over 32 MiB (exactly 32 MiB passes); an in-range upload whose sanitised name has a refused extension 400; 200 iff all pass; on 200 the reply counts the alerts of the alert pass; a classification record, and one history entry per alert, are saved iff the user keeps classification history |
| `Backend.UpdateSettings` | backend/app.py:510-540 | 404 iff the user is unknown; for a known user, 400 for a body decoding to null, false, 0, "", [] or {}; every object body is accepted with 200; on 200 only that user's settings row changes: whitelisted keys present in the body are overwritten and every other setting keeps its value; a truthy non-object body gives 500 iff `in` raises or finds a whitelisted name, and 200 otherwise |
| `Backend.AddCategory` | backend/app.py:565-597 | 404 iff the user is unknown; for a known user a falsy body gives 400 and a truthy non-object body 500 (the `.get` raises); a type outside the four gives 400; 409 iff the user already has the type; 201 iff the user exists, the body is an object, the type is one of the four and the user does not have it yet; on 201 one row is appended with exactly the six category fields, each the request's value when present and the handler's default otherwise |
| `Backend.OwnedCategory` | backend/app.py:608-610 | a found category sits at the id's position and belongs to the user; none is found only when the row with that id belongs to someone else or does not exist |
| `Backend.UpdateCategory` | backend/app.py:599-629 | an unknown user gets 404; for a known user a falsy body gives 400 and a truthy non-object body 500 (the `.get` raises); a missing or falsy id gives 400; a list or object id gives 500 (the query raises); any other id not naming one of the user's categories gives 404; an id naming one gives 200, and then only that row's whitelisted fields present in the body change, and owner and type stay |
| `Backend.ValidateToken` | backend/app.py:631-639 | always 200; success is true iff the account exists and is active |
| `Backend.DefaultCategoriesKeepWellFormed` | backend/app.py:200-205 | the four default categories of a new account keep the category table well formed: every row names an existing account and one of the four types, and no account has a type twice |
| `Backend.RegisterKeepsCategoriesWellFormed` | backend/app.py:181-210 | registration keeps the category table well formed |
| `Backend.AddCategoryKeepsCategoriesWellFormed` | backend/app.py:575-595 | adding a category keeps the category table well formed |
| `Backend.UpdateCategoryKeepsCategoriesWellFormed` | backend/app.py:612-619 | updating a category keeps the category table well formed |
| `Backend.AddCategoryTwice` | backend/app.py:580-595 | repeating a successful category addition is refused with 409 and changes nothing |
| `Backend.SettingsUpdateReachesAlerts` | backend/app.py:519-528 | after setting the threshold to "high" through the settings update, the alert rule alerts exactly the severe results, with the notification switch as before and the category switch on |
| `Backend.CategoryRowsDoNotRaise` | backend/alerts.py:454 | category rows whose types are all text never make the index by type raise |
| `Backend.ClassifyImageCountsPassingResults` | backend/app.py:372-402 | on a well-formed store an accepted upload reports exactly as many alerts as there are classifier results passing the alert rule with the user's settings and the category row of their type |
| `Client.Init` | frontend/js/api.js:2-5 | a new client takes its token from storage, or has none |
| `Client.SetToken` | frontend/js/api.js:7-14 | the in-memory token becomes the argument; a truthy token is stored as its text and a falsy one removes the key; no other key changes |
| `Client.SetTokenSurvivesReload` | frontend/js/api.js:4-14 | a non-empty text token set with setToken is what a freshly constructed client reads back |
| `Client.GetHeaders` | frontend/js/api.js:16-26 | always the JSON content type; an Authorization header iff auth is requested and a token is held, and then it is the bearer token |
| `Client.Prepare` | frontend/js/api.js:28-38 | caller headers override the defaults; with a token the bearer header and the Origin win over the caller's (a browser drops Origin, a header scripts may not set, so the backend never receives it); without one, Authorization is present iff the caller sent one |
| `Client.AuthFlagHasNoEffect` | frontend/js/api.js:34-36 | the `auth` option never changes the request sent |
| `Client.Resolve` | frontend/js/api.js:40-53 | a 401 resolves to undefined without reading the body; an unreadable body throws; a transport error is re-thrown unchanged; otherwise the response with its parsed data |
| `Client.Request` | frontend/js/api.js:28-54 | a request never changes the client state; `fetch` throws a TypeError without sending anything when a header value has a character above U+00FF, and otherwise the outcome is the network's answer to the prepared request |
| `Client.UnauthorizedKeepsToken` | frontend/js/api.js:43-46 | a 401 on any request that was sent yields undefined and leaves token and storage as they were |
| `Client.DataOf` | frontend/js/api.js:108 | destructuring an undefined result throws a TypeError; other errors pass through; otherwise the data |
| `Client.NoTokenNoAuthorization` | frontend/js/api.js:56-78 | without a token, requests built from the client's default options carry no Authorization header |
| `Client.Put` | frontend/js/api.js:68-74 | a PUT with the JSON text of the body; with its default options it carries the bearer header exactly when a token is held; the state never changes |
| `Client.Register` | frontend/js/api.js:102-105 | posts to /register and returns the whole envelope, so a 401 gives undefined rather than an error |
| `Client.LoginAsWritten` | frontend/js/api.js:107-116 | as written: an accepted answer sets the token to the access token but persists the text of `data.token`, then stores the user's id and profile, touches no other stored key and returns the data; a missing user throws after the token is written; a refused answer is returned with the state unchanged; a null body throws |
| `Client.Login` | frontend/js/api.js:107-116 | corrected: on an accepted answer the token and the stored token text are the access token; the user's id and profile are stored, no other key changes and the data is returned; otherwise as written |
| `Client.LoginThenBearer` | frontend/js/api.js:107-110 | after a successful backend login, either version sends `Bearer <access token>` on the next request |
| `Client.LoginAsWrittenLosesToken` | frontend/js/api.js:111 | as written, after a backend login a reloaded client holds the text "undefined" and sends `Bearer undefined` |
| `Client.LoginSurvivesReload` | frontend/js/api.js:110-111 | corrected, a reloaded client still sends the access token |
| `Client.Logout` | frontend/js/api.js:118-124 | the token and its stored key are cleared on every path and no other key changes; logout throws iff the POST threw, with the same error |
| `Client.LogoutThenAnonymous` | frontend/js/api.js:118-124 | after logout a request carries Authorization only if the caller adds it |
| `Client.ValidateToken` | frontend/js/api.js:126-129 | a GET to /validate-token; a 401 throws a TypeError at the destructuring; otherwise the parsed answer is returned as is, and a transport error is re-thrown unchanged |
| `Client.UploadOptions` | frontend/js/api.js:95-99 | with a token: the octet-stream content type and the file's name; without one: no headers at all |
| `Client.UploadFile` | frontend/js/api.js:80-100 | the raw file is the body; with a token it goes as an octet stream named by X-File-Name with the bearer header; without one it is labelled JSON and carries neither |
| `Client.UploadHeadersAreByteStrings` | frontend/js/api.js:94-99 | `fetch` accepts an upload's headers without a token always, and with one iff the file name and the bearer header have no character above U+00FF |
| `Client.ClassifyFlags` | frontend/js/api.js:157-160 | save_result and send_alerts are true unless the option is exactly false |
| `Client.ClassifyImage` | frontend/js/api.js:156-165 | the file goes to /classify-image; a 401 throws a TypeError, a parsed answer is returned as is and a transport error is re-thrown unchanged |
| `Client.ClassifyOptionsIgnored` | frontend/js/api.js:156-165 | the options never change what classifyImage does: it is the upload to /classify-image with the data taken out |
| `Client.HistoryParams` | frontend/js/api.js:167-172 | page then limit, followed by the filters; a filter with the same key overrides page or limit in place |
| `Common.NatToStringRoundTrip` | frontend/js/api.js:168-169 | the decimal text `toString` gives a non-negative page or limit reads back as the same number |
| `Client.GetClassificationHistory` | frontend/js/api.js:167-176 | a GET to /classification-history with those parameters as its query; a 401 throws a TypeError at the destructuring; otherwise the parsed answer is returned as is, and a transport error is re-thrown unchanged |
| `Client.GetNotifications` | frontend/js/api.js:188-192 | a GET to /notifications, with "?unread_only=true" appended iff the flag is truthy; a 401 throws a TypeError at the destructuring; otherwise the parsed answer is returned as is, and a transport error is re-thrown unchanged |
| `Client.NotificationsFilterOnlyAppendsQuery` | frontend/js/api.js:188-192 | the unread filter changes nothing but the URL, to which it appends "?unread_only=true" |
| `Client.ExportData` | frontend/js/api.js:239-249 | sent with the default headers; a 2xx status returns the payload bytes unchanged, any other status throws, and transport errors pass through |
| `Client.ExportHeadersMatchRequest` | frontend/js/api.js:239-249 | the export sends to the same URL, with the same verb and the same headers as request would, less the Origin header only request adds |
| `Session.FileNameHeader` | backend/app.py:305 | the file name the backend reads is the X-File-Name header, absent when not sent |
| `Session.UploadedBytes` | backend/app.py:299 | the raw body the backend reads is the uploaded file's bytes |
| `Session.ClassifyRoute` | backend/app.py:285-286 | a request without an Authorization header is refused with 401 and changes nothing; any other request is handled by the classification handler |
| `Session.UploadReachesClassifier` | frontend/js/api.js:80-100 | an upload from a client with a token carries the file's bytes and name; it is sent iff the file name and the token are byte strings, and otherwise throws a TypeError before reaching the backend; once sent, the backend accepts it iff the account exists, the size is in range and the sanitised name has an allowed extension; without a token it carries no credentials and the route answers 401 with the store unchanged |

## Left out

- Python's `str.lower()` on non-ASCII text is not modelled. `AllowedFile` lower-cases ASCII only. For the allowed extensions this gives the same verdict: the only non-ASCII character that lower-cases into ASCII is the Kelvin sign, which becomes "k", and no allowed extension contains a "k".
- `backend/model.py` is not part of this model: the settings and category row contents, `get_user_emergency_contacts`, `save_classification_result` and `save_alert_history` are abstracted as described above. A new account is modelled as active because registration (app.py:187-191) sets no `is_active` and the model takes the column default to be true.
- Foreign calls are parameters: password hashing, JWT creation and parsing, `secure_filename`, the classifier, and the e-mail service with its SMTP thread.
- A request body that is empty or is not valid JSON makes `request.get_json()` raise inside the handler's `try`, so register, login, the settings update and both category handlers answer with their catch-all 500 (app.py:225-228, 281-283, 537-540, 626-629). The handlers take the decoded body as `Option<Value>`, so that path is not modelled; their 400 for a missing body is the one for a body that decodes to a falsy JSON value.
- Message texts, HTML bodies, timestamps, log entries, upload paths and file writes are left out. Their failures (the handlers' catch-all 500) are not modelled either.
- Confidence is a real number, and the percentage formatting of messages is left out.
- `Backend.ClassifyImage`: does not state the fields of the saved classification and history records beyond their count, nor the response's per-result list, which only repeats classifier output.
- `Backend.UpdateCategory`: ids are matched as numbers only. SQL coercion of text or boolean ids is left out.
- The settings GET, the categories GET and the other backend routes (history, statistics, user info, health) are outside this core.
- `Client.HistoryParams`: page and limit come first only for ordinary filter names. JavaScript enumerates integer-like property names (such as "3") before all others, so such filters would precede page and limit in the query; filters are modelled as entries in insertion order.
- JSON numbers are integers in this model. Fractional numbers, and Python's and JavaScript's handling of them, are left out.
- `Backend.UpdateSettings`: column types live in `backend/model.py`, so a value the database cannot store in its column, which makes the commit raise, is not modelled: such a request is answered 200 here.
- `Backend.AddCategory`: the new row's fields are written into typed columns (app.py:586-592), so a body value its column cannot store makes the commit raise and the handler answer 500; the model answers 201.
- `Backend.UpdateCategory`: the same holds for category fields of a type their column cannot store.
- `Backend.Register`: SQLite compares values of different types by its own affinity rules; the model matches e-mails and usernames by JSON value equality. Hashing is a parameter, so a text password the hash function itself rejects is not modelled.
- `Backend.Login`: e-mails are matched by JSON value equality, not by SQLite's affinity rules.
- `Client.GetClassificationHistory`: does not model URL encoding by `URLSearchParams`. Filter values are already text.
- The client's base-address heuristic (api.js:2) depends on the page location. It is a parameter of `Client.Init`.
- `uploadFile` builds a `FormData` that is never sent, and it reads `selectedFile` (api.js:86), a name it does not define. The model assumes the page defines it, so the upload proceeds.
- `Session.ClassifyRoute`: the token gate is modelled only as the presence of an Authorization header; expired or malformed tokens and the mapping from token to account id are left out, and the id is a parameter.
- The thin client wrappers (user info, dashboard, charts, recent classifications, details, deletions, marking notifications, settings, contacts, activity, system info, health) add nothing beyond `Get`, `Post` and `Put`.
- Console logging is left out, and so is the timing of concurrent requests.

## Findings

| source | as written | input that shows it | evidently intended | confidence | as-written member | corrected member |
|---|---|---|---|---|---|---|
| frontend/js/api.js:111 | after `setToken(data.access_token)` the stored token is overwritten with `String(data.token)`; the backend's login answer (backend/app.py:268-277) has no `token` field, so the stored text is "undefined" | a login answered `{access_token: "T", success: true, user: {id: 1}}` followed by a page reload: the next request sends `Bearer undefined` | persist the access token, so a reloaded page keeps the session | high; not executed | `Client.LoginAsWritten` (`Client.LoginAsWrittenLosesToken`) | `Client.Login` (`Client.LoginSurvivesReload`) |

=== FILE: alerts.dfy ===
/** The alert decision and dispatch rules of the smart alert manager:
    which classification results raise an alert for a user, which delivery
    methods each alert records, which emergency contacts are notified, and
    the lookup tables behind the alert text. Sending e-mail is an abstract
    function that either hands back a handle for the started send or none. */
module Alerts {
  import opened Common
  import opened Json

  /** Risk level of a classification result. */
  datatype RiskLevel = Low | Medium | High | Critical {
    /** The level's text value as stored and compared by the backend. */
    function Name(): string {
      match this
      case Low => "low"
      case Medium => "medium"
      case High => "high"
      case Critical => "critical"
    }

    /** Severity order, used by the reference statement of the alert rule. */
    function Rank(): nat {
      match this
      case Low => 0
      case Medium => 1
      case High => 2
      case Critical => 3
    }

    predicate IsSevere() {
      this == High || this == Critical
    }
  }

  /** One per-category classification result; it comes from the classifier
      and enters the model as input. */
  datatype Result = Result(category: string, className: string, confidence: real, risk: RiskLevel)

  /** A settings dictionary (user settings, one category row, one contact). */
  type Settings = map<string, Value>

  /** One `{name, method, status}` entry of the notified-contacts list. */
  datatype ContactNotice = ContactNotice(name: Value, via: string, status: string)

  /** An e-mail handed to the sender: recipient, subject and risk level. */
  datatype Email = Email(to: Value, subject: string, riskLevel: string)

  /** Starting an e-mail send: a handle for the started send, or none on failure. */
  type EmailSender = Email -> Option<nat>

  /** One alert record. `notified` is present exactly when contacts were notified. */
  datatype Alert = Alert(
    category: string,
    title: string,
    riskLevel: RiskLevel,
    confidence: real,
    sentMethods: seq<string>,
    notified: Option<seq<ContactNotice>>)

  // ---------------------------------------------------------------------
  // Lookup tables with fall-backs

  const CategoryNames: map<string, string> := map[
    "traffic" := "حركة المرور",
    "fire" := "الحريق",
    "accident" := "الحادث",
    "violence" := "العنف"]

  const RiskLevelNames: map<string, string> := map[
    "low" := "منخفض",
    "medium" := "متوسط",
    "high" := "عالي",
    "critical" := "حرج"]

  const RiskColors: map<string, string> := map[
    "low" := "#28a745",
    "medium" := "#ffc107",
    "high" := "#fd7e14",
    "critical" := "#dc3545"]

  const DefaultColor: string := "#6c757d"

  const Recommendations: map<string, map<string, string>> := map[
    "traffic" := map[
      "heavy_traffic" := "ننصح بتجنب هذا الطريق أو استخدام طرق بديلة.",
      "accident_traffic" := "تجنب المنطقة تماماً واستخدم طريقاً آخر.",
      "blocked_traffic" := "الطريق مسدود، ابحث عن طريق بديل."],
    "fire" := map[
      "smoke" := "تحقق من مصدر الدخان واتخذ الاحتياطات اللازمة.",
      "small_fire" := "اتصل بالإطفاء على الرقم 998 فوراً.",
      "large_fire" := "اخلِ المنطقة فوراً واتصل بالطوارئ على الرقم 999."],
    "accident" := map[
      "minor_accident" := "توخ الحذر عند المرور بالمنطقة.",
      "major_accident" := "اتصل بالإسعاف على الرقم 997 والشرطة على الرقم 999."],
    "violence" := map[
      "verbal_violence" := "تجنب المنطقة وابتعد عن مصدر النزاع.",
      "physical_violence" := "اتصل بالشرطة على الرقم 999 فوراً."]]

  const DefaultRecommendation: string := "اتخذ الاحتياطات اللازمة."

  const TitlePrefix: string := "تنبيه "

  /** Arabic name of a category; an unknown category is shown as given. */
  function CategoryArabicName(category: string): (r: string)
    ensures category in CategoryNames ==> r == CategoryNames[category]
    ensures category !in CategoryNames ==> r == category
  {
    if category in CategoryNames then CategoryNames[category] else category
  }

  /** Arabic name of a risk level; an unknown level is shown as given. */
  function RiskLevelArabic(level: string): (r: string)
    ensures level in RiskLevelNames ==> r == RiskLevelNames[level]
    ensures level !in RiskLevelNames ==> r == level
  {
    if level in RiskLevelNames then RiskLevelNames[level] else level
  }

  /** Recommended action; any unknown category or class gets the generic advice. */
  function ActionRecommendation(category: string, className: string): (r: string)
    ensures category in Recommendations && className in Recommendations[category] ==>
              r == Recommendations[category][className]
    ensures !(category in Recommendations && className in Recommendations[category]) ==>
              r == DefaultRecommendation
  {
    var recs := if category in Recommendations then Recommendations[category] else map[];
    if className in recs then recs[className] else DefaultRecommendation
  }

  /** The generic advice is given exactly when the table has no entry for
      the pair: no tabled recommendation repeats it. */
  lemma ActionRecommendationTabled(category: string, className: string)
    ensures ActionRecommendation(category, className) != DefaultRecommendation <==>
              category in Recommendations && className in Recommendations[category]
  {
  }

  /** Colour of the HTML alert; an unknown level gets the neutral grey. */
  function RiskColor(level: string): (r: string)
    ensures level in RiskColors ==> r == RiskColors[level]
    ensures level !in RiskColors ==> r == DefaultColor
  {
    if level in RiskColors then RiskColors[level] else DefaultColor
  }

  /** Title of an alert: the prefix followed by the category's name. */
  function AlertTitle(category: string): (r: string)
    ensures |r| >= |TitlePrefix| && r[..|TitlePrefix|] == TitlePrefix
    ensures r[|TitlePrefix|..] == CategoryArabicName(category)
  {
    TitlePrefix + CategoryArabicName(category)
  }

  /** Every risk level the classifier can produce has its own name and
      colour: none of them reaches a fall-back, and the colours differ. */
  lemma EveryRiskLevelIsTabled(level: RiskLevel, other: RiskLevel)
    ensures RiskLevelArabic(level.Name()) != level.Name()
    ensures RiskColor(level.Name()) != DefaultColor
    ensures level != other ==> RiskColor(level.Name()) != RiskColor(other.Name())
  {
  }

  /** The four categories have names of their own, and distinct ones, so
      alerts for two different categories never share a title. */
  lemma KnownCategoriesTitledApart(a: string, b: string)
    requires a in CategoryNames && b in CategoryNames && a != b
    ensures CategoryArabicName(a) != a
    ensures AlertTitle(a) != AlertTitle(b)
  {
  }

  // ---------------------------------------------------------------------
  // Alert decision

  /** The user's switch for all notifications; absent means on. */
  predicate NotificationsOn(user: Settings) {
    PyTruthy(PyGet(user, "receive_notifications", Bool(true)))
  }

  /** The category row's alert switch; absent means on. */
  predicate CategoryAlertsOn(category: Settings) {
    PyTruthy(PyGet(category, "alert_enabled", Bool(true)))
  }

  /** The user's alert threshold; absent means "medium". */
  function Threshold(user: Settings): Value {
    PyGet(user, "alert_threshold", Str("medium"))
  }

  /** Reference reading of a threshold as the lowest rank that is alerted:
      "high" admits high and critical, "medium" everything but low, and
      any other value admits everything. */
  function MinRank(threshold: Value): nat {
    if threshold == Str("high") then 2
    else if threshold == Str("medium") then 1
    else 0
  }

  /** Whether a result raises an alert for the user. */
  function ShouldSendAlert(result: Result, user: Settings, category: Settings): (r: bool)
    ensures r <==> NotificationsOn(user) && CategoryAlertsOn(category)
                   && result.risk.Rank() >= MinRank(Threshold(user))
  {
    if !PyTruthy(PyGet(user, "receive_notifications", Bool(true))) then false
    else if !PyTruthy(PyGet(category, "alert_enabled", Bool(true))) then false
    else
      var risk := result.risk.Name();
      var threshold := PyGet(user, "alert_threshold", Str("medium"));
      if threshold == Str("high") && risk != "high" && risk != "critical" then false
      else if threshold == Str("medium") && risk == "low" then false
      else true
  }

  /** Under threshold "high" only high and critical results are alerted;
      under "medium", and when no threshold is set, only low is held back;
      any other threshold text holds nothing back. */
  lemma ThresholdTable(result: Result, user: Settings, category: Settings, other: string)
    requires NotificationsOn(user) && CategoryAlertsOn(category)
    requires other != "high" && other != "medium"
    ensures ShouldSendAlert(result, user["alert_threshold" := Str("high")], category) <==> result.risk.IsSevere()
    ensures ShouldSendAlert(result, user["alert_threshold" := Str("medium")], category) <==> result.risk != Low
    ensures "alert_threshold" !in user ==> (ShouldSendAlert(result, user, category) <==> result.risk != Low)
    ensures ShouldSendAlert(result, user["alert_threshold" := Str(other)], category)
  {
  }

  /** Raising the threshold from "medium" to "high" never adds an alert. */
  lemma ThresholdMonotone(result: Result, user: Settings, category: Settings)
    ensures ShouldSendAlert(result, user["alert_threshold" := Str("high")], category)
            ==> ShouldSendAlert(result, user["alert_threshold" := Str("medium")], category)
  {
  }

  // ---------------------------------------------------------------------
  // Category settings by type

  /** Building `{cat['category_type']: cat for cat in ...}` raises on this
      row: the key is missing or its value cannot be a dictionary key. */
  predicate RowRaises(row: Settings) {
    "category_type" !in row || row["category_type"].Arr? || row["category_type"].Obj?
  }

  /** The row's category type when it is text (only text keys can match a
      result's category). */
  function RowKey(row: Settings): Option<string> {
    if "category_type" in row && row["category_type"].Str? then Some(row["category_type"].s) else None
  }

  /** Row `i` is the last row with its (text) category type. */
  predicate IsLastOfType(rows: seq<Settings>, i: int)
    requires 0 <= i < |rows|
  {
    RowKey(rows[i]).Some? && forall j :: i < j < |rows| ==> RowKey(rows[j]) != RowKey(rows[i])
  }

  /** The category settings indexed by type; `None` when building the
      index raises, which makes the whole alert pass return nothing. */
  function IndexCategories(rows: seq<Settings>): (r: Option<map<string, Settings>>)
    ensures r.None? <==> exists i :: 0 <= i < |rows| && RowRaises(rows[i])
  {
    if |rows| == 0 then Some(map[])
    else
      var init := rows[..|rows| - 1];
      var last := rows[|rows| - 1];
      assert forall i :: 0 <= i < |init| ==> init[i] == rows[i];
      match IndexCategories(init)
      case None => None
      case Some(m) =>
        if RowRaises(last) then None
        else if last["category_type"].Str? then Some(m[last["category_type"].s := last])
        else Some(m)
  }

  /** The index has exactly the text category types of the rows as keys. */
  lemma {:induction false} IndexCategoriesKeys(rows: seq<Settings>, k: string)
    requires IndexCategories(rows).Some?
    ensures k in IndexCategories(rows).value <==> exists i :: 0 <= i < |rows| && RowKey(rows[i]) == Some(k)
  {
    if |rows| > 0 {
      var init := rows[..|rows| - 1];
      assert forall i :: 0 <= i < |init| ==> init[i] == rows[i];
      IndexCategoriesKeys(init, k);
      if exists i :: 0 <= i < |rows| && RowKey(rows[i]) == Some(k) {
        var i :| 0 <= i < |rows| && RowKey(rows[i]) == Some(k);
        if i < |init| {
          assert RowKey(init[i]) == Some(k);
        }
      }
    }
  }

  /** When several rows share a type, the index holds the last of them. */
  lemma {:induction false} IndexCategoriesLastWins(rows: seq<Settings>, i: nat)
    requires IndexCategories(rows).Some?
    requires i < |rows| && IsLastOfType(rows, i)
    ensures RowKey(rows[i]).value in IndexCategories(rows).value
    ensures IndexCategories(rows).value[RowKey(rows[i]).value] == rows[i]
  {
    var init := rows[..|rows| - 1];
    assert forall j :: 0 <= j < |init| ==> init[j] == rows[j];
    if i < |rows| - 1 {
      assert IsLastOfType(init, i);
      IndexCategoriesLastWins(init, i);
    }
  }

  /** The settings row used for a result's category (`.get(category, {})`). */
  function SettingsFor(index: map<string, Settings>, category: string): Settings {
    if category in index then index[category] else map[]
  }

  /** The alert rule applied with the category settings looked up by type. */
  function Passes(user: Settings, index: map<string, Settings>): Result -> bool {
    (res: Result) => ShouldSendAlert(res, user, SettingsFor(index, res.category))
  }

  // ---------------------------------------------------------------------
  // Dispatch

  /** A contact receives alerts unless `can_receive_alerts` is falsy; absent means yes. */
  predicate CanReceive(contact: Settings) {
    PyTruthy(PyGet(contact, "can_receive_alerts", Bool(true)))
  }

  function Notice(contact: Settings): ContactNotice {
    ContactNotice(PyGetOrNone(contact, "name"), "notification_prepared", "success")
  }

  /** The emergency-contact pass: one prepared notice per contact that can
      receive alerts, in order. */
  function NotifyContacts(contacts: seq<Settings>): (r: seq<ContactNotice>)
    ensures |r| == |Filter(contacts, CanReceive)|
    ensures forall i :: 0 <= i < |r| ==> r[i] == Notice(Filter(contacts, CanReceive)[i])
    ensures forall i :: 0 <= i < |r| ==> r[i].via == "notification_prepared" && r[i].status == "success"
  {
    if |contacts| == 0 then []
    else (if CanReceive(contacts[0]) then [Notice(contacts[0])] else []) + NotifyContacts(contacts[1..])
  }

  /** E-mail alerts of a category row; absent means on. */
  predicate EmailAlertsOn(category: Settings) {
    PyTruthy(PyGet(category, "email_alerts", Bool(true)))
  }

  /** The user's emergency-contact switch; absent means on. */
  predicate EmergencyContactsOn(user: Settings) {
    PyTruthy(PyGet(user, "emergency_contact_enabled", Bool(true)))
  }

  /** The channels an alert went out on, e-mail first. */
  function SentMethods(emailed: bool, notified: bool): (m: seq<string>)
    ensures "email" in m <==> emailed
    ensures "emergency_contacts" in m <==> notified
    ensures forall x :: x in m ==> x == "email" || x == "emergency_contacts"
    ensures |m| <= 2 && (|m| == 2 ==> m == ["email", "emergency_contacts"])
  {
    (if emailed then ["email"] else []) + (if notified then ["emergency_contacts"] else [])
  }

  /** The alert record for one result that passed the rule. */
  function BuildAlert(result: Result, user: Settings, category: Settings, recipient: Value,
                      contacts: seq<Settings>, send: EmailSender): (a: Alert)
    ensures a.category == result.category && a.riskLevel == result.risk
    ensures a.confidence == result.confidence && a.title == AlertTitle(result.category)
    ensures "email" in a.sentMethods <==>
              EmailAlertsOn(category) && send(Email(recipient, a.title, result.risk.Name())).Some?
    ensures "emergency_contacts" in a.sentMethods <==>
              result.risk.IsSevere() && EmergencyContactsOn(user)
              && exists i :: 0 <= i < |contacts| && CanReceive(contacts[i])
    ensures forall m :: m in a.sentMethods ==> m == "email" || m == "emergency_contacts"
    ensures |a.sentMethods| <= 2
    ensures |a.sentMethods| == 2 ==> a.sentMethods == ["email", "emergency_contacts"]
    ensures a.notified.Some? <==> "emergency_contacts" in a.sentMethods
    ensures a.notified.Some? ==> a.notified.value == NotifyContacts(contacts)
  {
    var title := AlertTitle(result.category);
    var emailed := EmailAlertsOn(category) && send(Email(recipient, title, result.risk.Name())).Some?;
    var notices := if result.risk.IsSevere() && EmergencyContactsOn(user) && |contacts| > 0
                   then NotifyContacts(contacts) else [];
    FilterNonEmpty(contacts, CanReceive);
    var notified := |notices| > 0;
    Alert(result.category, title, result.risk, result.confidence, SentMethods(emailed, notified),
          if notified then Some(notices) else None)
  }

  /** The alerts for a sequence of results, given the category index. */
  function AlertsFor(results: seq<Result>, user: Settings, index: map<string, Settings>, recipient: Value,
                     contacts: seq<Settings>, send: EmailSender): seq<Alert>
  {
    if |results| == 0 then []
    else
      var res := results[0];
      var here := if ShouldSendAlert(res, user, SettingsFor(index, res.category))
                  then [BuildAlert(res, user, SettingsFor(index, res.category), recipient, contacts, send)]
                  else [];
      here + AlertsFor(results[1..], user, index, recipient, contacts, send)
  }

  /** The alerts are exactly those built from the results that pass the
      rule, one per passing result and in input order. */
  lemma {:induction false} AlertsForKept(results: seq<Result>, user: Settings, index: map<string, Settings>,
                                         recipient: Value, contacts: seq<Settings>, send: EmailSender)
    ensures var r := AlertsFor(results, user, index, recipient, contacts, send);
            var kept := Filter(results, Passes(user, index));
            |r| == |kept| &&
            forall i :: 0 <= i < |r| ==>
              r[i] == BuildAlert(kept[i], user, SettingsFor(index, kept[i].category), recipient, contacts, send)
  {
    if |results| > 0 {
      var p := Passes(user, index);
      var res := results[0];
      var r := AlertsFor(results, user, index, recipient, contacts, send);
      var kept := Filter(results, p);
      var rest := AlertsFor(results[1..], user, index, recipient, contacts, send);
      var keptRest := Filter(results[1..], p);
      AlertsForKept(results[1..], user, index, recipient, contacts, send);
      var cs := SettingsFor(index, res.category);
      if p(res) {
        assert kept == [res] + keptRest;
        assert r == [BuildAlert(res, user, cs, recipient, contacts, send)] + rest;
        var build := (x: Result) => BuildAlert(x, user, SettingsFor(index, x.category), recipient, contacts, send);
        PairedCons(res, keptRest, rest, build);
      } else {
        assert kept == keptRest;
        assert r == rest;
      }
    }
  }

  /** The whole alert pass over one classification: the results that pass
      the rule, in order, each turned into its alert record; nothing at
      all when the category index cannot be built. */
  function ProcessClassificationAlerts(recipient: Value, results: seq<Result>, user: Settings,
                                       categories: seq<Settings>, contacts: seq<Settings>,
                                       send: EmailSender): (r: seq<Alert>)
    ensures |r| <= |results|
    ensures (exists i :: 0 <= i < |categories| && RowRaises(categories[i])) ==> r == []
    ensures IndexCategories(categories).Some? ==>
              var kept := Filter(results, Passes(user, IndexCategories(categories).value));
              |r| == |kept| &&
              forall i :: 0 <= i < |r| ==>
                r[i].category == kept[i].category && r[i].riskLevel == kept[i].risk
                && r[i].confidence == kept[i].confidence
                && r[i] == BuildAlert(kept[i], user, SettingsFor(IndexCategories(categories).value, kept[i].category),
                                      recipient, contacts, send)
  {
    match IndexCategories(categories)
    case None => []
    case Some(index) =>
      AlertsForKept(results, user, index, recipient, contacts, send);
      AlertsFor(results, user, index, recipient, contacts, send)
  }

  /** When two category rows share a type, the later row's switches decide. */
  lemma LaterCategoryRowWins(first: Settings, second: Settings, t: string)
    requires RowKey(first) == Some(t) && RowKey(second) == Some(t)
    ensures IndexCategories([first, second]).Some?
    ensures SettingsFor(IndexCategories([first, second]).value, t) == second
  {
    var rows := [first, second];
    assert IsLastOfType(rows, 1);
    IndexCategoriesLastWins(rows, 1);
  }
}

=== FILE: backend.dfy ===
/** Request validation and store updates of the backend's route handlers.
    Each handler is a pure function from the request (decoded JSON body,
    caller identity, raw upload) and the store to a status code, a few
    response fields and the new store. The database is an abstract store
    whose rows live in insertion order and whose ids are positions plus
    one; password hashing, token issuing, file-name sanitising, e-mail
    sending and the image classifier are function parameters. */
module Backend {
  import opened Common
  import opened Json
  import Alerts

  // ---------------------------------------------------------------------
  // Configuration

  const MaxFileSize: nat := 32 * 1024 * 1024
  const AllowedExtensions: set<string> := {"png", "jpg", "jpeg", "gif", "bmp", "tiff"}
  const CategoryTypes: seq<string> := ["traffic", "fire", "accident", "violence"]
  const DefaultFileName: string := "unknown_image.jpg"

  /** Settings a client may overwrite with a settings update. */
  const SettingsFields: set<string> := {
    "receive_notifications", "notification_sound", "notification_vibration",
    "keep_usage_history", "share_location", "emergency_contact_enabled",
    "alarm_enabled", "auto_detect_location", "location_update_interval",
    "auto_classification", "save_classification_history", "alert_threshold"}

  /** Category fields a client may overwrite with a category update. */
  const CategoryFields: set<string> := {
    "is_enabled", "priority_level", "alert_enabled", "email_alerts", "sms_alerts", "push_alerts"}

  /** Values a new category takes for fields the request leaves out. */
  const CategoryDefaults: map<string, Value> := map[
    "is_enabled" := Bool(true),
    "priority_level" := Num(3),
    "alert_enabled" := Bool(true),
    "email_alerts" := Bool(true),
    "sms_alerts" := Bool(false),
    "push_alerts" := Bool(true)]

  /** The categories every new account starts with, and their priorities. */
  const DefaultCategoryTable: seq<(string, int)> := [("traffic", 3), ("fire", 5), ("accident", 4), ("violence", 5)]

  // ---------------------------------------------------------------------
  // Store

  /** An account. `settings` is the settings row (only explicitly written
      fields are recorded; absent means the column default); `contacts` are
      the account's emergency contacts. */
  datatype User = User(
    email: Value,
    passwordHash: Value,
    username: Value,
    isActive: bool,
    settings: Option<map<string, Value>>,
    contacts: seq<map<string, Value>>)

  datatype Category = Category(userId: nat, categoryType: Value, fields: map<string, Value>)

  datatype Classification = Classification(userId: nat, fileName: string, results: seq<Alerts.Result>)

  datatype AlertEntry = AlertEntry(
    userId: nat, classificationId: nat, category: string, riskLevel: Alerts.RiskLevel, title: string)

  /** Row `i` of `users` and of `categories` has id `i + 1`. */
  datatype Store = Store(
    users: seq<User>,
    categories: seq<Category>,
    classifications: seq<Classification>,
    alertHistory: seq<AlertEntry>)

  /** Status code, the response fields this model tracks, and the new store. */
  datatype Reply = Reply(status: int, body: map<string, Value>, store: Store)

  function Fail(status: int, st: Store): Reply {
    Reply(status, map[], st)
  }

  function UserAt(st: Store, id: int): Option<User> {
    if 1 <= id <= |st.users| then Some(st.users[id - 1]) else None
  }

  /** What `request.get_json()` plus the first use of `data.get` make of a
      body: falsy (answered 400), not a dictionary (`.get` raises, 500), or
      a dictionary. */
  datatype Body = NoData | NotDict | Dict(fields: map<string, Value>)

  function ReadBody(data: Option<Value>): (b: Body)
    ensures b.NoData? <==> !PyTruthyOpt(data)
    ensures b.Dict? <==> PyTruthyOpt(data) && data.value.Obj?
  {
    if !PyTruthyOpt(data) then NoData
    else if data.value.Obj? then Dict(data.value.fields)
    else NotDict
  }

  /** `data.get(key)` of a dictionary body, `None` otherwise. */
  function Field(data: Option<Value>, key: string): Value {
    if data.Some? && data.value.Obj? then PyGetOrNone(data.value.fields, key) else Null
  }

  // ---------------------------------------------------------------------
  // Upload file names

  /** `'.' in f and f.rsplit('.', 1)[1].lower() in ALLOWED_EXTENSIONS`. */
  function AllowedFile(filename: string): bool {
    match LastIndexOf(filename, '.')
    case None => false
    case Some(i) => ToLower(filename[i + 1..]) in AllowedExtensions
  }

  /** A character that does not occur after either of two positions
      holding it is held by one position only. */
  lemma LastOccurrenceUnique(s: string, c: char, i: nat, j: nat)
    requires i < |s| && s[i] == c && c !in s[i + 1..]
    requires j < |s| && s[j] == c && c !in s[j + 1..]
    ensures i == j
  {
  }

  /** A file name is accepted exactly when it has a dot and the text after
      its last dot, lower-cased, is an allowed extension. */
  lemma AllowedFileCharacterization(filename: string)
    ensures AllowedFile(filename) <==>
              exists i :: 0 <= i < |filename| && filename[i] == '.' && '.' !in filename[i + 1..]
                          && ToLower(filename[i + 1..]) in AllowedExtensions
  {
    match LastIndexOf(filename, '.')
    case None =>
      assert '.' !in filename;
    case Some(j) =>
      if AllowedFile(filename) {
        assert 0 <= j < |filename| && filename[j] == '.' && '.' !in filename[j + 1..]
               && ToLower(filename[j + 1..]) in AllowedExtensions;
      } else {
        forall i | 0 <= i < |filename| && filename[i] == '.' && '.' !in filename[i + 1..]
          ensures ToLower(filename[i + 1..]) !in AllowedExtensions
        {
          LastOccurrenceUnique(filename, '.', i, j);
        }
      }
  }

  /** Upper-case extensions are accepted, and only the last extension counts. */
  lemma AllowedFileAccepts()
    ensures AllowedFile("a.JPG") && AllowedFile("x.tar.png")
  {
    assert LastIndexOf("a.JPG", '.') == Some(1);
    assert ToLower("JPG") == "jpg";
    assert LastIndexOf("x.tar.png", '.') == Some(5);
    assert "x.tar.png"[6..] == "png";
    assert ToLower("png") == "png";
  }

  /** A name without a dot, or whose last extension is not an image type, is refused. */
  lemma AllowedFileRefuses()
    ensures !AllowedFile("jpg") && !AllowedFile("a.png.exe")
  {
    assert LastIndexOf("a.png.exe", '.') == Some(5);
    assert "a.png.exe"[6..] == "exe";
    assert ToLower("exe") == "exe";
  }

  // ---------------------------------------------------------------------
  // Register and login

  predicate EmailTaken(st: Store, email: Value) {
    exists i :: 0 <= i < |st.users| && st.users[i].email == email
  }

  predicate UsernameTaken(st: Store, username: Value) {
    exists i :: 0 <= i < |st.users| && st.users[i].username == username
  }

  /** A value the database can bind as a query parameter; a list or an
      object makes the query raise, which the handlers answer with 500. */
  predicate Bindable(v: Value) {
    !v.Arr? && !v.Obj?
  }

  /** The account `filter_by(email=...).first()` finds. */
  function AccountFor(st: Store, email: Value): (r: Option<nat>)
    ensures r.Some? ==> r.value < |st.users| && st.users[r.value].email == email
    ensures r.Some? ==> forall j :: 0 <= j < r.value ==> st.users[j].email != email
    ensures r.None? <==> !EmailTaken(st, email)
  {
    FirstIndex(st.users, (u: User) => u.email == email)
  }

  /** A register body that passes the required-fields check. */
  predicate CompleteRegistration(data: Option<Value>) {
    ReadBody(data).Dict? && PyTruthy(Field(data, "email")) && PyTruthy(Field(data, "password"))
    && PyTruthy(Field(data, "username"))
  }

  /** A register body the handler accepts against this store: complete,
      every queried value bindable, a text password (hashing encodes it as
      text and raises on anything else), and neither e-mail nor username in use. */
  predicate FreshRegistration(st: Store, data: Option<Value>) {
    CompleteRegistration(data) && Bindable(Field(data, "email")) && Bindable(Field(data, "username"))
    && Field(data, "password").Str?
    && !EmailTaken(st, Field(data, "email")) && !UsernameTaken(st, Field(data, "username"))
  }

  function DefaultCategories(userId: nat): (rows: seq<Category>)
    ensures |rows| == |DefaultCategoryTable|
  {
    seq(|DefaultCategoryTable|, i requires 0 <= i < |DefaultCategoryTable| =>
      Category(userId, Str(DefaultCategoryTable[i].0),
               map["is_enabled" := Bool(true), "priority_level" := Num(DefaultCategoryTable[i].1)]))
  }

  /** POST /register. */
  function Register(st: Store, data: Option<Value>, hash: Value -> Value): (r: Reply)
    ensures r.status in {201, 400, 409, 500}
    ensures r.status != 201 ==> r.store == st
    ensures !PyTruthyOpt(data) ==> r.status == 400
    ensures PyTruthyOpt(data) && !data.value.Obj? ==> r.status == 500
    // missing fields are reported before any uniqueness check
    ensures ReadBody(data).Dict? && !CompleteRegistration(data) ==> r.status == 400
    ensures CompleteRegistration(data) && !Bindable(Field(data, "email")) ==> r.status == 500
    ensures r.status == 409 ==> EmailTaken(st, Field(data, "email")) || UsernameTaken(st, Field(data, "username"))
    ensures (CompleteRegistration(data) && Bindable(Field(data, "email"))
             && EmailTaken(st, Field(data, "email"))) ==> r.status == 409
    ensures (CompleteRegistration(data) && Bindable(Field(data, "email")) && Bindable(Field(data, "username"))
             && UsernameTaken(st, Field(data, "username"))) ==> r.status == 409
    ensures r.status == 500 ==>
              !ReadBody(data).Dict? || !Bindable(Field(data, "email")) || !Bindable(Field(data, "username"))
              || !Field(data, "password").Str?
    // the username query raises on a list or object, and hashing on a non-text password
    ensures (CompleteRegistration(data) && Bindable(Field(data, "email")) && !EmailTaken(st, Field(data, "email"))
             && !Bindable(Field(data, "username"))) ==> r.status == 500
    ensures (CompleteRegistration(data) && Bindable(Field(data, "email")) && Bindable(Field(data, "username"))
             && !EmailTaken(st, Field(data, "email")) && !UsernameTaken(st, Field(data, "username"))
             && !Field(data, "password").Str?) ==> r.status == 500
    // a complete, fresh registration always succeeds
    ensures r.status == 201 <==> FreshRegistration(st, data)
    ensures r.status == 201 ==>
              var id := |st.users| + 1;
              && r.store.users == st.users + [User(Field(data, "email"), hash(Field(data, "password")),
                                                   Field(data, "username"), true, Some(map[]), [])]
              && |r.store.categories| == |st.categories| + 4
              && r.store.categories[..|st.categories|] == st.categories
              && (forall j :: 0 <= j < 4 ==>
                    var c := r.store.categories[|st.categories| + j];
                    c.userId == id && "is_enabled" in c.fields && "priority_level" in c.fields
                    && c.fields["is_enabled"] == Bool(true)
                    && c.categoryType == Str(DefaultCategoryTable[j].0)
                    && c.fields["priority_level"] == Num(DefaultCategoryTable[j].1))
              && r.store.classifications == st.classifications && r.store.alertHistory == st.alertHistory
              && "user_id" in r.body && r.body["user_id"] == Num(id)
              && "default_categories_created" in r.body && r.body["default_categories_created"] == Num(4)
  {
    match ReadBody(data)
    case NoData => Fail(400, st)
    case NotDict => Fail(500, st)
    case Dict(d) =>
      var email := PyGetOrNone(d, "email");
      var password := PyGetOrNone(d, "password");
      var username := PyGetOrNone(d, "username");
      if !PyTruthy(email) || !PyTruthy(password) || !PyTruthy(username) then Fail(400, st)
      else if !Bindable(email) then Fail(500, st)
      else if AccountFor(st, email).Some? then Fail(409, st)
      else if !Bindable(username) then Fail(500, st)
      else if FirstIndex(st.users, (u: User) => u.username == username).Some? then Fail(409, st)
      else if !password.Str? then Fail(500, st)
      else
        var id := |st.users| + 1;
        var user := User(email, hash(password), username, true, Some(map[]), []);
        var defaults := DefaultCategories(id);
        Reply(201,
              map["user_id" := Num(id), "default_categories_created" := Num(|defaults|)],
              st.(users := st.users + [user], categories := st.categories + defaults))
  }

  /** A login body that passes the required-fields check. */
  predicate CompleteLogin(data: Option<Value>) {
    ReadBody(data).Dict? && PyTruthy(Field(data, "email")) && PyTruthy(Field(data, "password"))
  }

  /** POST /login. `verify` checks a stored hash against a text password
      and `issue` makes the access token for a user id. */
  function Login(st: Store, data: Option<Value>, verify: (Value, Value) -> bool, issue: nat -> string): (r: Reply)
    ensures r.store == st
    ensures r.status in {200, 400, 401, 403, 500}
    ensures !PyTruthyOpt(data) ==> r.status == 400
    ensures PyTruthyOpt(data) && !data.value.Obj? ==> r.status == 500
    ensures ReadBody(data).Dict? && !CompleteLogin(data) ==> r.status == 400
    ensures CompleteLogin(data) && !Bindable(Field(data, "email")) ==> r.status == 500
    ensures CompleteLogin(data) && Bindable(Field(data, "email")) && !EmailTaken(st, Field(data, "email"))
            ==> r.status == 401
    // the first account with the e-mail decides the rest
    ensures CompleteLogin(data) && Bindable(Field(data, "email")) && AccountFor(st, Field(data, "email")).Some? ==>
              var user := st.users[AccountFor(st, Field(data, "email")).value];
              var password := Field(data, "password");
              && (!password.Str? ==> r.status == 500)
              // a wrong password is refused the same way as an unknown e-mail
              && (password.Str? && !verify(user.passwordHash, password) ==> r.status == 401)
              // an inactive account is only revealed to a caller who knows its password
              && (password.Str? && verify(user.passwordHash, password) && !user.isActive ==> r.status == 403)
              && (password.Str? && verify(user.passwordHash, password) && user.isActive ==> r.status == 200)
    ensures r.status == 403 ==>
              exists i :: 0 <= i < |st.users| && st.users[i].email == Field(data, "email")
                          && verify(st.users[i].passwordHash, Field(data, "password")) && !st.users[i].isActive
    ensures r.status == 200 ==>
              exists i :: 0 <= i < |st.users| && st.users[i].email == Field(data, "email")
                          && verify(st.users[i].passwordHash, Field(data, "password")) && st.users[i].isActive
                          && "access_token" in r.body && r.body["access_token"] == Str(issue(i + 1))
                          && "success" in r.body && r.body["success"] == Bool(true)
  {
    match ReadBody(data)
    case NoData => Fail(400, st)
    case NotDict => Fail(500, st)
    case Dict(d) =>
      var email := PyGetOrNone(d, "email");
      var password := PyGetOrNone(d, "password");
      if !PyTruthy(email) || !PyTruthy(password) then Fail(400, st)
      else if !Bindable(email) then Fail(500, st)
      else match AccountFor(st, email)
        case None => Fail(401, st)
        case Some(i) =>
          var user := st.users[i];
          if !password.Str? then Fail(500, st)
          else if !verify(user.passwordHash, password) then Fail(401, st)
          else if !user.isActive then Fail(403, st)
          else
            var profile := map["id" := Num(i + 1), "email" := user.email, "username" := user.username];
            Reply(200, map["access_token" := Str(issue(i + 1)), "success" := Bool(true), "user" := Obj(profile)], st)
  }

  /** Registering and then logging in with the same e-mail and password
      succeeds and names the new account, for any hash/verify pair that
      accepts a password against its own hash. */
  lemma RegisterThenLogin(st: Store, data: Option<Value>, hash: Value -> Value,
                          verify: (Value, Value) -> bool, issue: nat -> string)
    requires forall p :: verify(hash(p), p)
    requires Register(st, data, hash).status == 201
    ensures var r := Login(Register(st, data, hash).store, data, verify, issue);
            r.status == 200 && "access_token" in r.body && r.body["access_token"] == Str(issue(|st.users| + 1))
  {
    var st' := Register(st, data, hash).store;
    var email := Field(data, "email");
    var p := (u: User) => u.email == email;
    assert !EmailTaken(st, email);
    forall j | 0 <= j < |st.users| ensures !p(st'.users[j]) {
      assert st'.users[j] == st.users[j];
    }
    assert p(st'.users[|st.users|]);
    assert EmailTaken(st', email);
    assert AccountFor(st', email) == Some(|st.users|);
  }

  // ---------------------------------------------------------------------
  // Image classification

  /** The settings the alert pass reads for a user (an absent row reads as `{}`). */
  function UserSettingsOf(user: User): map<string, Value> {
    user.settings.GetOr(map[])
  }

  /** The category rows of a user as dictionaries carrying their type. */
  function CategoryRows(categories: seq<Category>, userId: nat): seq<map<string, Value>> {
    if |categories| == 0 then []
    else
      var c := categories[0];
      (if c.userId == userId then [c.fields["category_type" := c.categoryType]] else [])
      + CategoryRows(categories[1..], userId)
  }

  predicate SaveHistoryOn(settings: map<string, Value>) {
    PyTruthy(PyGet(settings, "save_classification_history", Bool(true)))
  }

  function HistoryEntries(userId: nat, classificationId: nat, alerts: seq<Alerts.Alert>): (r: seq<AlertEntry>)
    ensures |r| == |alerts|
  {
    seq(|alerts|, i requires 0 <= i < |alerts| =>
      AlertEntry(userId, classificationId, alerts[i].category, alerts[i].riskLevel, alerts[i].title))
  }

  /** The alerts the classification of an upload raises for a user. */
  function UploadAlerts(st: Store, userId: nat, user: User, results: seq<Alerts.Result>,
                        send: Alerts.EmailSender): seq<Alerts.Alert> {
    Alerts.ProcessClassificationAlerts(user.email, results, UserSettingsOf(user),
                                       CategoryRows(st.categories, userId), user.contacts, send)
  }

  /** POST /classify-image. `secure` sanitises the file name; `results`
      is what the classifier reports for the stored image. */
  function ClassifyImage(st: Store, identity: int, fileData: seq<bv8>, fileNameHeader: Option<string>,
                         secure: string -> string, results: seq<Alerts.Result>,
                         send: Alerts.EmailSender): (r: Reply)
    ensures r.status in {200, 400, 404, 413}
    ensures r.status != 200 ==> r.store == st
    ensures r.status == 404 <==> UserAt(st, identity).None?
    ensures UserAt(st, identity).Some? && |fileData| == 0 ==> r.status == 400
    ensures r.status == 413 <==> UserAt(st, identity).Some? && |fileData| > MaxFileSize
    // a file of acceptable size whose sanitised name has a refused extension
    ensures (UserAt(st, identity).Some? && 0 < |fileData| <= MaxFileSize
             && !AllowedFile(secure(fileNameHeader.GetOr(DefaultFileName)))) ==> r.status == 400
    ensures r.status == 200 <==>
              UserAt(st, identity).Some? && 0 < |fileData| <= MaxFileSize
              && AllowedFile(secure(fileNameHeader.GetOr(DefaultFileName)))
    ensures r.status == 200 ==>
              var user := UserAt(st, identity).value;
              var alerts := UploadAlerts(st, identity, user, results, send);
              var saved := SaveHistoryOn(UserSettingsOf(user));
              && r.store.users == st.users && r.store.categories == st.categories
              && "alerts_sent" in r.body && r.body["alerts_sent"] == Num(|alerts|)
              && |r.store.classifications| == |st.classifications| + (if saved then 1 else 0)
              && r.store.classifications[..|st.classifications|] == st.classifications
              && |r.store.alertHistory| == |st.alertHistory| + (if saved then |alerts| else 0)
              && r.store.alertHistory[..|st.alertHistory|] == st.alertHistory
  {
    match UserAt(st, identity)
    case None => Fail(404, st)
    case Some(user) =>
      var filename := fileNameHeader.GetOr(DefaultFileName);
      if |fileData| == 0 then Fail(400, st)
      else if |fileData| > MaxFileSize then Fail(413, st)
      else
        var safeName := secure(filename);
        if !AllowedFile(safeName) then Fail(400, st)
        else
          var settings := UserSettingsOf(user);
          var saved := SaveHistoryOn(settings);
          var classificationId := |st.classifications| + 1;
          var st1 := if saved
                     then st.(classifications := st.classifications + [Classification(identity, safeName, results)])
                     else st;
          var alerts := UploadAlerts(st, identity, user, results, send);
          var st2 := if saved && |alerts| > 0
                     then st1.(alertHistory := st1.alertHistory + HistoryEntries(identity, classificationId, alerts))
                     else st1;
          Reply(200,
                map["alerts_sent" := Num(|alerts|),
                    "classification_id" := if saved then Num(classificationId) else Null],
                st2)
  }

  // ---------------------------------------------------------------------
  // Settings update

  /** Python's `field in data` for a truthy body that is not a dictionary;
      `None` when `in` itself raises (numbers and booleans). */
  function PyContains(data: Value, field: string): Option<bool> {
    match data
    case Arr(items) => Some(Str(field) in items)
    case Str(s) => Some(IsInfix(field, s))
    case Obj(fields) => Some(field in fields)
    case _ => None
  }

  /** The settings update raises on a non-dictionary body: `in` raises, or a
      whitelisted name is found and `data[field]` then raises. */
  predicate SettingsUpdateRaises(data: Value) {
    !data.Obj? && exists f :: f in SettingsFields && PyContains(data, f) != Some(false)
  }

  function WithSettings(st: Store, index: nat, row: map<string, Value>): Store
    requires index < |st.users|
  {
    st.(users := st.users[index := st.users[index].(settings := Some(row))])
  }

  /** PUT /user/settings. */
  function UpdateSettings(st: Store, identity: int, data: Option<Value>): (r: Reply)
    ensures r.status in {200, 400, 404, 500}
    ensures r.status != 200 ==> r.store == st
    ensures r.status == 404 <==> UserAt(st, identity).None?
    ensures UserAt(st, identity).Some? && !PyTruthyOpt(data) ==> r.status == 400
    // every dictionary body is accepted, whatever keys it carries
    ensures UserAt(st, identity).Some? && ReadBody(data).Dict? ==> r.status == 200
    ensures UserAt(st, identity).Some? && PyTruthyOpt(data) && !data.value.Obj? && !SettingsUpdateRaises(data.value)
            ==> r.status == 200
    ensures r.status == 200 ==>
              var i := identity - 1;
              var before := UserSettingsOf(st.users[i]);
              && 0 <= i < |st.users| && |r.store.users| == |st.users|
              && (forall j :: 0 <= j < |st.users| && j != i ==> r.store.users[j] == st.users[j])
              && r.store.users[i] == st.users[i].(settings := r.store.users[i].settings)
              && r.store.users[i].settings.Some?
              && var after := r.store.users[i].settings.value;
                 // whitelisted keys present in the request are overwritten ...
                 && (forall k :: k in SettingsFields && ReadBody(data).Dict? && k in data.value.fields
                                 ==> k in after && after[k] == data.value.fields[k])
                 // ... and every other setting keeps its value
                 && (forall k :: !(k in SettingsFields && ReadBody(data).Dict? && k in data.value.fields)
                                 ==> (k in after <==> k in before) && (k in before ==> after[k] == before[k]))
    ensures UserAt(st, identity).Some? && PyTruthyOpt(data) && !data.value.Obj?
            ==> (r.status == 500 <==> SettingsUpdateRaises(data.value))
    ensures r.store.categories == st.categories && r.store.classifications == st.classifications
    ensures r.store.alertHistory == st.alertHistory
  {
    match UserAt(st, identity)
    case None => Fail(404, st)
    case Some(user) =>
      if !PyTruthyOpt(data) then Fail(400, st)
      else
        var before := UserSettingsOf(user);
        if data.value.Obj? then
          Reply(200, map[], WithSettings(st, identity - 1, UpdateWhitelisted(before, data.value.fields, SettingsFields)))
        else if SettingsUpdateRaises(data.value) then Fail(500, st)
        else Reply(200, map[], WithSettings(st, identity - 1, before))
  }

  // ---------------------------------------------------------------------
  // Categories

  /** One of the four category types the system classifies. */
  predicate IsCategoryType(v: Value) {
    v.Str? && v.s in CategoryTypes
  }

  predicate HasCategory(st: Store, userId: nat, categoryType: Value) {
    exists i :: 0 <= i < |st.categories| && st.categories[i].userId == userId
                && st.categories[i].categoryType == categoryType
  }

  /** POST /user/categories. */
  function AddCategory(st: Store, identity: int, data: Option<Value>): (r: Reply)
    ensures r.status in {201, 400, 404, 409, 500}
    ensures r.status != 201 ==> r.store == st
    ensures r.status == 404 <==> UserAt(st, identity).None?
    ensures UserAt(st, identity).Some? && !PyTruthyOpt(data) ==> r.status == 400
    ensures UserAt(st, identity).Some? && PyTruthyOpt(data) && !data.value.Obj? ==> r.status == 500
    ensures (UserAt(st, identity).Some? && ReadBody(data).Dict? && !IsCategoryType(Field(data, "category_type")))
            ==> r.status == 400
    ensures r.status == 409 ==> HasCategory(st, identity, Field(data, "category_type"))
    ensures (UserAt(st, identity).Some? && ReadBody(data).Dict? && IsCategoryType(Field(data, "category_type"))
             && HasCategory(st, identity, Field(data, "category_type"))) ==> r.status == 409
    ensures r.status == 201 <==>
              (UserAt(st, identity).Some? && ReadBody(data).Dict? && IsCategoryType(Field(data, "category_type"))
               && !HasCategory(st, identity, Field(data, "category_type")))
    ensures r.status == 201 ==>
              && |r.store.categories| == |st.categories| + 1
              && r.store.categories[..|st.categories|] == st.categories
              && var c := r.store.categories[|st.categories|];
                 && c.userId == identity && c.categoryType == Field(data, "category_type")
                 && IsCategoryType(c.categoryType)
                 && c.fields.Keys == CategoryFields
                 && (forall f :: f in CategoryFields && f in data.value.fields ==> c.fields[f] == data.value.fields[f])
                 && (forall f :: f in CategoryFields && f !in data.value.fields ==> c.fields[f] == CategoryDefaults[f])
    ensures r.store.users == st.users
  {
    match UserAt(st, identity)
    case None => Fail(404, st)
    case Some(_) =>
      match ReadBody(data)
      case NoData => Fail(400, st)
      case NotDict => Fail(500, st)
      case Dict(d) =>
        var categoryType := PyGetOrNone(d, "category_type");
        if categoryType !in [Str("traffic"), Str("fire"), Str("accident"), Str("violence")] then Fail(400, st)
        else if FirstIndex(st.categories, (c: Category) => c.userId == identity && c.categoryType == categoryType).Some?
        then Fail(409, st)
        else
          var fields := map f | f in CategoryFields :: PyGet(d, f, CategoryDefaults[f]);
          Reply(201, map[], st.(categories := st.categories + [Category(identity, categoryType, fields)]))
  }

  /** The position of category `id` when it belongs to the user. */
  function OwnedCategory(st: Store, userId: nat, id: Value): (r: Option<nat>)
    ensures r.Some? ==> r.value < |st.categories| && st.categories[r.value].userId == userId
                        && id == Num(r.value + 1)
    ensures r.None? ==> forall i :: 0 <= i < |st.categories| && id == Num(i + 1) ==> st.categories[i].userId != userId
  {
    if id.Num? && 1 <= id.n <= |st.categories| && st.categories[id.n - 1].userId == userId
    then Some(id.n - 1) else None
  }

  /** PUT /user/categories. */
  function UpdateCategory(st: Store, identity: int, data: Option<Value>): (r: Reply)
    ensures r.status in {200, 400, 404, 500}
    ensures r.status != 200 ==> r.store == st
    ensures UserAt(st, identity).None? ==> r.status == 404
    ensures UserAt(st, identity).Some? && !PyTruthyOpt(data) ==> r.status == 400
    ensures UserAt(st, identity).Some? && PyTruthyOpt(data) && !data.value.Obj? ==> r.status == 500
    ensures UserAt(st, identity).Some? && ReadBody(data).Dict? && !PyTruthy(Field(data, "id")) ==> r.status == 400
    // a list or object id makes the lookup query raise
    ensures (UserAt(st, identity).Some? && ReadBody(data).Dict? && PyTruthy(Field(data, "id"))
             && !Bindable(Field(data, "id"))) ==> r.status == 500
    ensures (UserAt(st, identity).Some? && ReadBody(data).Dict? && PyTruthy(Field(data, "id"))
             && Bindable(Field(data, "id")) && OwnedCategory(st, identity, Field(data, "id")).None?) ==> r.status == 404
    ensures (UserAt(st, identity).Some? && ReadBody(data).Dict?
             && OwnedCategory(st, identity, Field(data, "id")).Some?) ==> r.status == 200
    ensures r.status == 200 ==>
              && OwnedCategory(st, identity, Field(data, "id")).Some? && ReadBody(data).Dict?
              && var i := OwnedCategory(st, identity, Field(data, "id")).value;
              var d := data.value.fields;
              && |r.store.categories| == |st.categories|
              && (forall j :: 0 <= j < |st.categories| && j != i ==> r.store.categories[j] == st.categories[j])
              && r.store.categories[i].userId == st.categories[i].userId
              && r.store.categories[i].categoryType == st.categories[i].categoryType
              && (forall k :: k in CategoryFields && k in d ==>
                    k in r.store.categories[i].fields && r.store.categories[i].fields[k] == d[k])
              && (forall k :: !(k in CategoryFields && k in d) ==>
                    (k in r.store.categories[i].fields <==> k in st.categories[i].fields)
                    && (k in st.categories[i].fields ==> r.store.categories[i].fields[k] == st.categories[i].fields[k]))
    ensures r.store.users == st.users
  {
    match UserAt(st, identity)
    case None => Fail(404, st)
    case Some(_) =>
      match ReadBody(data)
      case NoData => Fail(400, st)
      case NotDict => Fail(500, st)
      case Dict(d) =>
        var id := PyGetOrNone(d, "id");
        if !PyTruthy(id) then Fail(400, st)
        else if !Bindable(id) then Fail(500, st)
        else match OwnedCategory(st, identity, id)
          case None => Fail(404, st)
          case Some(i) =>
            var c := st.categories[i];
            var updated := c.(fields := UpdateWhitelisted(c.fields, d, CategoryFields));
            Reply(200, map[], st.(categories := st.categories[i := updated]))
  }

  // ---------------------------------------------------------------------
  // Token validation

  /** GET /validate-token: always 200; `success` says whether the account
      exists and is active. */
  function ValidateToken(st: Store, identity: int): (r: Reply)
    ensures r.status == 200 && r.store == st
    ensures "success" in r.body && r.body["success"].Bool?
    ensures r.body["success"].b <==> 1 <= identity <= |st.users| && st.users[identity - 1].isActive
  {
    match UserAt(st, identity)
    case Some(user) => Reply(200, map["success" := Bool(user.isActive)], st)
    case None => Reply(200, map["success" := Bool(false)], st)
  }

  // ---------------------------------------------------------------------
  // Store invariant and handler sequences

  /** What the handlers keep true of the category table: every row belongs
      to an existing account and has one of the four types, and no account
      has two rows of the same type. */
  predicate CategoriesWellFormed(st: Store) {
    && (forall i :: 0 <= i < |st.categories| ==>
          1 <= st.categories[i].userId <= |st.users| && IsCategoryType(st.categories[i].categoryType))
    && (forall i, j :: 0 <= i < j < |st.categories| && st.categories[i].userId == st.categories[j].userId
          ==> st.categories[i].categoryType != st.categories[j].categoryType)
  }

  /** A new account's default categories extend a well-formed table. */
  lemma {:induction false} DefaultCategoriesKeepWellFormed(st: Store, user: User)
    requires CategoriesWellFormed(st)
    ensures CategoriesWellFormed(st.(users := st.users + [user],
                                     categories := st.categories + DefaultCategories(|st.users| + 1)))
  {
    var n := |st.categories|;
    var defaults := DefaultCategories(|st.users| + 1);
    var cs := st.categories + defaults;
    forall k | 0 <= k < |defaults|
      ensures defaults[k].userId == |st.users| + 1 && defaults[k].categoryType == Str(DefaultCategoryTable[k].0)
      ensures IsCategoryType(defaults[k].categoryType)
    {
      assert DefaultCategoryTable[k].0 in CategoryTypes;
    }
    forall i | 0 <= i < |cs| ensures cs[i] == if i < n then st.categories[i] else defaults[i - n] {
    }
  }

  lemma RegisterKeepsCategoriesWellFormed(st: Store, data: Option<Value>, hash: Value -> Value)
    requires CategoriesWellFormed(st)
    ensures CategoriesWellFormed(Register(st, data, hash).store)
  {
    var r := Register(st, data, hash);
    if r.status == 201 {
      var user := r.store.users[|st.users|];
      DefaultCategoriesKeepWellFormed(st, user);
      assert r.store == st.(users := st.users + [user],
                            categories := st.categories + DefaultCategories(|st.users| + 1));
    }
  }

  lemma AddCategoryKeepsCategoriesWellFormed(st: Store, identity: int, data: Option<Value>)
    requires CategoriesWellFormed(st)
    ensures CategoriesWellFormed(AddCategory(st, identity, data).store)
  {
    var r := AddCategory(st, identity, data);
    if r.status == 201 {
      var n := |st.categories|;
      var cs := r.store.categories;
      forall i, j | 0 <= i < j < |cs| && cs[i].userId == cs[j].userId
        ensures cs[i].categoryType != cs[j].categoryType
      {
        if j == n {
          assert cs[i] == st.categories[i];
        }
      }
    }
  }

  lemma UpdateCategoryKeepsCategoriesWellFormed(st: Store, identity: int, data: Option<Value>)
    requires CategoriesWellFormed(st)
    ensures CategoriesWellFormed(UpdateCategory(st, identity, data).store)
  {
  }

  /** Adding the same category twice: the second request is refused as a
      duplicate and changes nothing. */
  lemma AddCategoryTwice(st: Store, identity: int, data: Option<Value>)
    requires AddCategory(st, identity, data).status == 201
    ensures var st' := AddCategory(st, identity, data).store;
            AddCategory(st', identity, data).status == 409 && AddCategory(st', identity, data).store == st'
  {
    var st' := AddCategory(st, identity, data).store;
    assert st'.categories[|st.categories|].userId == identity;
    assert HasCategory(st', identity, Field(data, "category_type"));
  }

  /** A freshly registered account validates as active under its new id. */
  lemma RegisterThenValidate(st: Store, data: Option<Value>, hash: Value -> Value)
    requires Register(st, data, hash).status == 201
    ensures ValidateToken(Register(st, data, hash).store, |st.users| + 1).body["success"] == Bool(true)
  {
    assert Register(st, data, hash).store.users[|st.users|].isActive;
  }

  /** The token a successful login hands out names an account that
      validates as active. */
  lemma LoginTokenValidates(st: Store, data: Option<Value>, verify: (Value, Value) -> bool, issue: nat -> string)
    requires Login(st, data, verify, issue).status == 200
    ensures exists id: nat :: Login(st, data, verify, issue).body["access_token"] == Str(issue(id))
                         && ValidateToken(st, id).body["success"] == Bool(true)
  {
    var r := Login(st, data, verify, issue);
    var i :| 0 <= i < |st.users| && st.users[i].email == Field(data, "email")
             && verify(st.users[i].passwordHash, Field(data, "password")) && st.users[i].isActive
             && "access_token" in r.body && r.body["access_token"] == Str(issue(i + 1))
             && "success" in r.body && r.body["success"] == Bool(true);
    assert ValidateToken(st, i + 1).body["success"] == Bool(true);
  }

  /** Setting the threshold to "high" through the settings update is what
      the alert rule then reads: only high and critical results are alerted,
      and the other switches keep their effect. */
  lemma SettingsUpdateReachesAlerts(st: Store, identity: int, result: Alerts.Result, category: Alerts.Settings)
    requires UserAt(st, identity).Some?
    ensures var r := UpdateSettings(st, identity, Some(Obj(map["alert_threshold" := Str("high")])));
            && r.status == 200
            && (Alerts.ShouldSendAlert(result, UserSettingsOf(r.store.users[identity - 1]), category) <==>
                  Alerts.NotificationsOn(UserSettingsOf(st.users[identity - 1]))
                  && Alerts.CategoryAlertsOn(category) && result.risk.IsSevere())
  {
    var data := Some(Obj(map["alert_threshold" := Str("high")]));
    var r := UpdateSettings(st, identity, data);
    var before := UserSettingsOf(st.users[identity - 1]);
    var after := UserSettingsOf(r.store.users[identity - 1]);
    assert "alert_threshold" in SettingsFields && "alert_threshold" in data.value.fields;
    assert ReadBody(data).Dict?;
    assert after["alert_threshold"] == Str("high");
    assert "receive_notifications" !in data.value.fields;
    assert PyGet(after, "receive_notifications", Bool(true)) == PyGet(before, "receive_notifications", Bool(true));
  }

  /** Without a type that cannot be a dictionary key, the category rows
      always index. */
  lemma {:induction false} CategoryRowsDoNotRaise(categories: seq<Category>, userId: nat)
    requires forall i :: 0 <= i < |categories| ==> categories[i].categoryType.Str?
    ensures forall i :: 0 <= i < |CategoryRows(categories, userId)| ==>
              !Alerts.RowRaises(CategoryRows(categories, userId)[i])
  {
    if |categories| > 0 {
      CategoryRowsDoNotRaise(categories[1..], userId);
      var c := categories[0];
      var head := if c.userId == userId then [c.fields["category_type" := c.categoryType]] else [];
      var rest := CategoryRows(categories[1..], userId);
      var rows := CategoryRows(categories, userId);
      assert rows == head + rest;
      forall i | 0 <= i < |rows| ensures !Alerts.RowRaises(rows[i]) {
        if i >= |head| {
          assert rows[i] == rest[i - |head|];
        }
      }
    }
  }

  /** On a well-formed store, an accepted upload reports one alert per
      classifier result that passes the alert rule with the user's settings
      and the category row of its type. */
  lemma ClassifyImageCountsPassingResults(st: Store, identity: int, fileData: seq<bv8>,
                                          fileNameHeader: Option<string>, secure: string -> string,
                                          results: seq<Alerts.Result>, send: Alerts.EmailSender)
    requires CategoriesWellFormed(st) && UserAt(st, identity).Some?
    ensures Alerts.IndexCategories(CategoryRows(st.categories, identity)).Some?
    ensures var r := ClassifyImage(st, identity, fileData, fileNameHeader, secure, results, send);
            var index := Alerts.IndexCategories(CategoryRows(st.categories, identity)).value;
            var settings := UserSettingsOf(st.users[identity - 1]);
            r.status == 200 ==> r.body["alerts_sent"] == Num(|Filter(results, Alerts.Passes(settings, index))|)
  {
    CategoryRowsDoNotRaise(st.categories, identity);
  }
}

=== FILE: client.dfy ===
/** The browser client's token and header state machine. The state is the
    token held in memory plus the browser's durable key/value storage; the
    network is a function from the request sent to what came back (a
    response, or a thrown error). Every operation returns the new state,
    the one request it sent and its outcome. */
module Client {
  import opened Common
  import opened Json

  const TokenKey: string := "authToken"
  const JsonContentType: string := "application/json"
  const OriginValue: string := "http://alqudimi.com"

  /** Base address, the in-memory token (`Null` stands for null and
      undefined) and the durable storage. */
  datatype ClientState = ClientState(baseUrl: string, token: Value, storage: map<string, string>)

  datatype File = File(name: string, bytes: seq<bv8>)

  /** A request body: none, the JSON text of a value, or a raw file. */
  datatype Body = NoBody | JsonText(value: Value) | FileBody(file: File)

  /** The caller's options: method, body, extra headers and the `auth` flag
      (`None` when the caller did not pass one). */
  datatype Options = Options(verb: string, body: Body, headers: map<string, string>, auth: Option<Value>)

  /** What is handed to the network. */
  datatype Outgoing = Outgoing(url: string, verb: string, headers: map<string, string>, body: Body)

  /** A response: status, raw payload, and its JSON reading (`None` when
      the payload is not JSON and parsing it throws). */
  datatype Response = Response(status: int, bytes: seq<bv8>, json: Option<Value>)

  datatype Error = NetworkError(message: string) | BadJson | TypeError | ExportFailed

  datatype Transport = Delivered(response: Response) | Failed(error: Error)

  type Network = Outgoing -> Transport

  datatype Outcome<T> = Returned(value: T) | Threw(error: Error)

  /** What `request` resolves to: `undefined`, or `{response, data}`. */
  datatype Envelope = Undefined | Envelope(response: Response, data: Value)

  datatype Step<T> = Step(state: ClientState, sent: Outgoing, outcome: Outcome<T>)

  // ---------------------------------------------------------------------
  // Token

  /** Construction: the token is read back from storage (`null` if absent). */
  function Init(baseUrl: string, storage: map<string, string>): (s: ClientState)
    ensures s.baseUrl == baseUrl && s.storage == storage
    ensures TokenKey in storage ==> s.token == Str(storage[TokenKey])
    ensures TokenKey !in storage ==> s.token == Null
  {
    ClientState(baseUrl, if TokenKey in storage then Str(storage[TokenKey]) else Null, storage)
  }

  /** `setToken`: keep the token in memory; persist it when truthy, drop it otherwise. */
  function SetToken(s: ClientState, token: Value): (s': ClientState)
    ensures s'.token == token && s'.baseUrl == s.baseUrl
    ensures JsTruthy(token) ==> TokenKey in s'.storage && s'.storage[TokenKey] == ToJsString(token)
    ensures !JsTruthy(token) ==> TokenKey !in s'.storage
    ensures forall k :: k != TokenKey ==>
              (k in s'.storage <==> k in s.storage) && (k in s.storage ==> s'.storage[k] == s.storage[k])
  {
    var storage := if JsTruthy(token) then s.storage[TokenKey := ToJsString(token)] else s.storage - {TokenKey};
    s.(token := token, storage := storage)
  }

  /** A non-empty text token set with `setToken` is the token a freshly
      constructed client reads back. */
  lemma SetTokenSurvivesReload(s: ClientState, t: string, baseUrl: string)
    requires t != ""
    ensures Init(baseUrl, SetToken(s, Str(t)).storage).token == Str(t)
  {
  }

  function Bearer(s: ClientState): string {
    "Bearer " + ToJsString(s.token)
  }

  /** `getHeaders(includeAuth)`. */
  function GetHeaders(s: ClientState, includeAuth: bool): (h: map<string, string>)
    ensures "Content-Type" in h && h["Content-Type"] == JsonContentType
    ensures "Authorization" in h <==> includeAuth && JsTruthy(s.token)
    ensures "Authorization" in h ==> h["Authorization"] == Bearer(s)
    ensures h.Keys <= {"Content-Type", "Authorization"}
  {
    var base := map["Content-Type" := JsonContentType];
    if includeAuth && JsTruthy(s.token) then base["Authorization" := Bearer(s)] else base
  }

  // ---------------------------------------------------------------------
  // request

  /** The request `request` sends: default headers, overridden by the
      caller's, overridden in turn by the stored token (with an `Origin`). */
  function Prepare(s: ClientState, endpoint: string, opts: Options): (o: Outgoing)
    ensures o.url == s.baseUrl + endpoint && o.verb == opts.verb && o.body == opts.body
    ensures o.headers.Keys == {"Content-Type"} + opts.headers.Keys
                              + (if JsTruthy(s.token) then {"Authorization", "Origin"} else {})
    // with a token the bearer header wins over whatever the caller passed
    ensures JsTruthy(s.token) ==> o.headers["Authorization"] == Bearer(s) && o.headers["Origin"] == OriginValue
    ensures forall k :: k in opts.headers && !(JsTruthy(s.token) && k in {"Authorization", "Origin"}) ==>
              o.headers[k] == opts.headers[k]
    ensures "Content-Type" !in opts.headers ==> o.headers["Content-Type"] == JsonContentType
    // without a token nothing but the caller adds an Authorization header
    ensures !JsTruthy(s.token) ==> ("Authorization" in o.headers <==> "Authorization" in opts.headers)
  {
    var defaults := GetHeaders(s, opts.auth != Some(Bool(false)));
    var forced := if JsTruthy(s.token) then map["Authorization" := Bearer(s), "Origin" := OriginValue] else map[];
    Outgoing(s.baseUrl + endpoint, opts.verb, defaults + opts.headers + forced, opts.body)
  }

  /** The `auth` option never changes what is sent: with a token the bearer
      header is forced anyway, and without one there is nothing to leave out. */
  lemma AuthFlagHasNoEffect(s: ClientState, endpoint: string, opts: Options, a: Option<Value>)
    ensures Prepare(s, endpoint, opts.(auth := a)) == Prepare(s, endpoint, opts)
  {
    var o1 := Prepare(s, endpoint, opts.(auth := a));
    var o2 := Prepare(s, endpoint, opts);
    assert o1.headers.Keys == o2.headers.Keys;
  }

  /** A byte string: every character is at most U+00FF, as a header value
      passed to `fetch` must be. */
  predicate Latin1(t: string) {
    forall i :: 0 <= i < |t| ==> t[i] as int < 256
  }

  predicate ByteStringHeaders(o: Outgoing) {
    ByteStrings(o.headers)
  }

  predicate ByteStrings(h: map<string, string>) {
    forall k :: k in h ==> Latin1(h[k])
  }

  /** What `fetch` makes of a request: one with a header value that is not a
      byte string is never sent and throws a TypeError; any other request is
      answered by the network. */
  function Fetch(net: Network, o: Outgoing): (t: Transport)
    ensures ByteStringHeaders(o) ==> t == net(o)
    ensures !ByteStringHeaders(o) ==> t == Failed(TypeError)
  {
    if ByteStringHeaders(o) then net(o) else Failed(TypeError)
  }

  /** What `request` resolves to for a given network answer. */
  function Resolve(t: Transport): (r: Outcome<Envelope>)
    ensures t.Failed? ==> r == Threw(t.error)
    ensures t.Delivered? && t.response.status == 401 ==> r == Returned(Undefined)
    ensures t.Delivered? && t.response.status != 401 ==>
              (r.Returned? <==> t.response.json.Some?)
              && (r.Returned? ==> r.value == Envelope(t.response, t.response.json.value))
              && (r.Threw? ==> r.error == BadJson)
  {
    match t
    case Failed(e) => Threw(e)
    case Delivered(response) =>
      if response.status == 401 then Returned(Undefined)
      else if response.json.None? then Threw(BadJson)
      else Returned(Envelope(response, response.json.value))
  }

  /** `request(endpoint, options)`: the state never changes, a 401 resolves
      to `undefined`, and transport errors are re-thrown unchanged. */
  function Request(s: ClientState, endpoint: string, opts: Options, net: Network): (r: Step<Envelope>)
    ensures r.state == s && r.sent == Prepare(s, endpoint, opts)
    ensures r.outcome == Resolve(Fetch(net, r.sent))
  {
    var sent := Prepare(s, endpoint, opts);
    Step(s, sent, Resolve(Fetch(net, sent)))
  }

  const NoOptions: Options := Options("GET", NoBody, map[], None)
  const NoAuth: Options := NoOptions.(auth := Some(Bool(false)))

  function Get(s: ClientState, endpoint: string, opts: Options, net: Network): Step<Envelope> {
    Request(s, endpoint, opts.(verb := "GET"), net)
  }

  function Post(s: ClientState, endpoint: string, body: Value, opts: Options, net: Network): Step<Envelope> {
    Request(s, endpoint, opts.(verb := "POST", body := JsonText(body)), net)
  }

  /** The options `put` and `delete` use when the caller passes none. */
  function DefaultWriteOptions(s: ClientState): Options {
    NoOptions.(headers := if JsTruthy(s.token) then map["Authorization" := Bearer(s)] else map[])
  }

  /** `put` with its default options: the JSON text of the body, sent with
      the bearer header whenever a token is held. */
  function Put(s: ClientState, endpoint: string, body: Value, net: Network): (r: Step<Envelope>)
    ensures r.state == s && r.sent.verb == "PUT" && r.sent.body == JsonText(body)
    ensures r.sent.url == s.baseUrl + endpoint
    ensures JsTruthy(s.token) <==> "Authorization" in r.sent.headers
    ensures JsTruthy(s.token) ==> r.sent.headers["Authorization"] == Bearer(s)
    ensures r.outcome == Resolve(Fetch(net, r.sent))
  {
    Request(s, endpoint, DefaultWriteOptions(s).(verb := "PUT", body := JsonText(body)), net)
  }

  /** `const { data } = await ...`: destructuring `undefined` throws. */
  function DataOf(step: Step<Envelope>): (r: Step<Value>)
    ensures r.state == step.state && r.sent == step.sent
    ensures step.outcome == Returned(Undefined) ==> r.outcome == Threw(TypeError)
    ensures step.outcome.Threw? ==> r.outcome == Threw(step.outcome.error)
    ensures step.outcome.Returned? && step.outcome.value.Envelope? ==> r.outcome == Returned(step.outcome.value.data)
  {
    match step.outcome
    case Threw(e) => Step(step.state, step.sent, Threw(e))
    case Returned(Undefined) => Step(step.state, step.sent, Threw(TypeError))
    case Returned(Envelope(_, data)) => Step(step.state, step.sent, Returned(data))
  }

  /** Without a token, no request the client builds from its own default
      options carries an Authorization header. */
  lemma NoTokenNoAuthorization(s: ClientState, endpoint: string, a: Option<Value>)
    requires !JsTruthy(s.token)
    ensures "Authorization" !in Prepare(s, endpoint, NoOptions.(auth := a)).headers
    ensures "Authorization" !in Prepare(s, endpoint, DefaultWriteOptions(s)).headers
  {
  }

  // ---------------------------------------------------------------------
  // Authentication

  /** `register`: returns the whole envelope, so a 401 yields `undefined`. */
  function Register(s: ClientState, userData: Value, net: Network): (r: Step<Envelope>)
    ensures r.state == s && r.sent.verb == "POST" && r.sent.url == s.baseUrl + "/register"
    ensures r.outcome == Resolve(Fetch(net, r.sent))
  {
    Post(s, "/register", userData, NoAuth, net)
  }

  /** The login request. */
  function LoginRequest(s: ClientState, credentials: Value): Outgoing {
    Prepare(s, "/login", NoAuth.(verb := "POST", body := JsonText(credentials)))
  }

  /** The body the login request produced, when it produced one. */
  function LoginData(s: ClientState, credentials: Value, net: Network): Option<Value> {
    var t := Fetch(net, LoginRequest(s, credentials));
    if t.Delivered? && t.response.status != 401 && t.response.json.Some? then Some(t.response.json.value) else None
  }

  /** `data.success && data.access_token` holds of a login answer. */
  predicate Accepted(data: Option<Value>) {
    data.Some? && !data.value.Null?
    && JsTruthyOpt(Member(data.value, "success")) && JsTruthyOpt(Member(data.value, "access_token"))
  }

  /** Shared body of both login versions; `corrected` selects what line 111
      writes to the token key. */
  function LoginFlow(s: ClientState, credentials: Value, net: Network, corrected: bool): Step<Value> {
    var step := DataOf(Post(s, "/login", credentials, NoAuth, net));
    match step.outcome
    case Threw(_) => step
    case Returned(data) =>
      if data.Null? then Step(s, step.sent, Threw(TypeError))
      else if !JsTruthyOpt(Member(data, "success")) || !JsTruthyOpt(Member(data, "access_token")) then step
      else
        var accessToken := Member(data, "access_token").value;
        var s1 := SetToken(s, accessToken);
        var stored := if corrected then ToJsString(accessToken) else ToJsStringOpt(Member(data, "token"));
        var s2 := s1.(storage := s1.storage[TokenKey := stored]);
        var user := Member(data, "user");
        if IsNullish(user) then Step(s2, step.sent, Threw(TypeError))
        else
          var s3 := s2.(storage := s2.storage["user_id" := ToJsStringOpt(Member(user.value, "id"))]);
          Step(s3.(storage := s3.storage["user" := ToJsString(user.value)]), step.sent, Returned(data))
  }

  /** `login` as the client writes it: the token changes only on an
      accepted answer, and the stored token text is then `String(data.token)`. */
  function LoginAsWritten(s: ClientState, credentials: Value, net: Network): (r: Step<Value>)
    ensures r.sent == LoginRequest(s, credentials)
    ensures !Accepted(LoginData(s, credentials, net)) ==> r.state == s
    ensures Accepted(LoginData(s, credentials, net)) ==>
              var data := LoginData(s, credentials, net).value;
              && r.state.token == Member(data, "access_token").value
              && TokenKey in r.state.storage
              && r.state.storage[TokenKey] == ToJsStringOpt(Member(data, "token"))
    // an accepted answer writes the token, then the user's id and profile,
    // and touches no other stored key
    ensures Accepted(LoginData(s, credentials, net)) ==>
              var data := LoginData(s, credentials, net).value;
              var stored := s.storage[TokenKey := ToJsStringOpt(Member(data, "token"))];
              var user := Member(data, "user");
              if IsNullish(user) then r.state.storage == stored && r.outcome == Threw(TypeError)
              else
                && r.state.storage == stored["user_id" := ToJsStringOpt(Member(user.value, "id"))]
                                            ["user" := ToJsString(user.value)]
                && r.outcome == Returned(data)
    // a refused answer is handed back to the caller
    ensures LoginData(s, credentials, net).Some? && !LoginData(s, credentials, net).value.Null?
            && !Accepted(LoginData(s, credentials, net))
            ==> r.outcome == Returned(LoginData(s, credentials, net).value)
    ensures r.state.baseUrl == s.baseUrl
    ensures r.outcome.Threw? <==>
              LoginData(s, credentials, net).None? || LoginData(s, credentials, net).value.Null?
              || (Accepted(LoginData(s, credentials, net))
                  && IsNullish(Member(LoginData(s, credentials, net).value, "user")))
  {
    LoginFlow(s, credentials, net, false)
  }

  /** `login` with the stored token text equal to the access token. */
  function Login(s: ClientState, credentials: Value, net: Network): (r: Step<Value>)
    ensures r.sent == LoginRequest(s, credentials)
    ensures !Accepted(LoginData(s, credentials, net)) ==> r.state == s
    ensures Accepted(LoginData(s, credentials, net)) ==>
              var data := LoginData(s, credentials, net).value;
              && r.state.token == Member(data, "access_token").value
              && TokenKey in r.state.storage
              && r.state.storage[TokenKey] == ToJsString(r.state.token)
    // an accepted answer writes the token, then the user's id and profile,
    // and touches no other stored key
    ensures Accepted(LoginData(s, credentials, net)) ==>
              var data := LoginData(s, credentials, net).value;
              var stored := s.storage[TokenKey := ToJsString(Member(data, "access_token").value)];
              var user := Member(data, "user");
              if IsNullish(user) then r.state.storage == stored && r.outcome == Threw(TypeError)
              else
                && r.state.storage == stored["user_id" := ToJsStringOpt(Member(user.value, "id"))]
                                            ["user" := ToJsString(user.value)]
                && r.outcome == Returned(data)
    // a refused answer is handed back to the caller
    ensures LoginData(s, credentials, net).Some? && !LoginData(s, credentials, net).value.Null?
            && !Accepted(LoginData(s, credentials, net))
            ==> r.outcome == Returned(LoginData(s, credentials, net).value)
    ensures r.state.baseUrl == s.baseUrl
    ensures r.outcome.Threw? <==>
              LoginData(s, credentials, net).None? || LoginData(s, credentials, net).value.Null?
              || (Accepted(LoginData(s, credentials, net))
                  && IsNullish(Member(LoginData(s, credentials, net).value, "user")))
  {
    LoginFlow(s, credentials, net, true)
  }

  /** The answer the backend gives a successful login: an access token,
      `success`, and the user's profile; it has no `token` field. */
  predicate BackendLoginAnswer(data: Value, t: string) {
    data.Obj? && t != ""
    && "access_token" in data.fields && data.fields["access_token"] == Str(t)
    && "success" in data.fields && data.fields["success"] == Bool(true)
    && "user" in data.fields && data.fields["user"].Obj?
    && "token" !in data.fields
  }

  /** After a successful login, either version sends `Bearer <access token>`
      on the next request. */
  lemma LoginThenBearer(s: ClientState, credentials: Value, net: Network, t: string,
                        endpoint: string, opts: Options)
    requires LoginData(s, credentials, net).Some? && BackendLoginAnswer(LoginData(s, credentials, net).value, t)
    ensures Prepare(Login(s, credentials, net).state, endpoint, opts).headers["Authorization"] == "Bearer " + t
    ensures Prepare(LoginAsWritten(s, credentials, net).state, endpoint, opts).headers["Authorization"] == "Bearer " + t
  {
  }

  /** As written, the token text persisted by a successful backend login is
      "undefined" (the answer has no `token` field), so a client constructed
      afterwards, as on a page reload, sends `Bearer undefined` instead of
      the access token. */
  lemma LoginAsWrittenLosesToken(s: ClientState, credentials: Value, net: Network, t: string, endpoint: string)
    requires LoginData(s, credentials, net).Some? && BackendLoginAnswer(LoginData(s, credentials, net).value, t)
    ensures var after := LoginAsWritten(s, credentials, net).state;
            var reloaded := Init(after.baseUrl, after.storage);
            && reloaded.token == Str("undefined")
            && Prepare(reloaded, endpoint, NoOptions).headers["Authorization"] == "Bearer undefined"
  {
    var data := LoginData(s, credentials, net).value;
    assert Accepted(LoginData(s, credentials, net));
    assert Member(data, "token") == None;
    var after := LoginAsWritten(s, credentials, net).state;
    assert after.storage[TokenKey] == "undefined";
    var reloaded := Init(after.baseUrl, after.storage);
    assert reloaded.token == Str("undefined");
    assert Bearer(reloaded) == "Bearer undefined";
  }

  /** Corrected, the reloaded client keeps sending the access token. */
  lemma LoginSurvivesReload(s: ClientState, credentials: Value, net: Network, t: string, endpoint: string)
    requires LoginData(s, credentials, net).Some? && BackendLoginAnswer(LoginData(s, credentials, net).value, t)
    ensures var after := Login(s, credentials, net).state;
            var reloaded := Init(after.baseUrl, after.storage);
            && reloaded.token == Str(t)
            && Prepare(reloaded, endpoint, NoOptions).headers["Authorization"] == "Bearer " + t
  {
  }

  /** `logout`: the token is cleared on every path; the outcome is that of the POST. */
  function Logout(s: ClientState, net: Network): (r: Step<()>)
    ensures r.state.token == Null && TokenKey !in r.state.storage
    ensures forall k :: k != TokenKey ==>
              (k in r.state.storage <==> k in s.storage) && (k in s.storage ==> r.state.storage[k] == s.storage[k])
    ensures r.sent.verb == "POST" && r.sent.url == s.baseUrl + "/logout"
    ensures r.outcome.Threw? <==> Resolve(Fetch(net, r.sent)).Threw?
    ensures r.outcome.Threw? ==> r.outcome.error == Resolve(Fetch(net, r.sent)).error
  {
    var step := Post(s, "/logout", Obj(map[]), NoOptions, net);
    var cleared := SetToken(s, Null);
    match step.outcome
    case Threw(e) => Step(cleared, step.sent, Threw(e))
    case Returned(_) => Step(cleared, step.sent, Returned(()))
  }

  /** After logout, requests carry no Authorization header unless the caller adds one. */
  lemma LogoutThenAnonymous(s: ClientState, net: Network, endpoint: string, opts: Options)
    ensures var o := Prepare(Logout(s, net).state, endpoint, opts);
            "Authorization" in o.headers <==> "Authorization" in opts.headers
  {
  }

  /** `validateToken`. */
  function ValidateToken(s: ClientState, net: Network): (r: Step<Value>)
    ensures r.state == s && r.sent.url == s.baseUrl + "/validate-token" && r.sent.verb == "GET"
    ensures Fetch(net, r.sent).Delivered? && Fetch(net, r.sent).response.status == 401 ==> r.outcome == Threw(TypeError)
    ensures Fetch(net, r.sent).Delivered? && Fetch(net, r.sent).response.status != 401 && Fetch(net, r.sent).response.json.Some?
            ==> r.outcome == Returned(Fetch(net, r.sent).response.json.value)
    ensures Fetch(net, r.sent).Failed? ==> r.outcome == Threw(Fetch(net, r.sent).error)
  {
    DataOf(Get(s, "/validate-token", NoOptions, net))
  }

  /** A 401 answer leaves the token and the storage as they were, for any request. */
  lemma UnauthorizedKeepsToken(s: ClientState, endpoint: string, opts: Options, net: Network)
    requires Fetch(net, Prepare(s, endpoint, opts)).Delivered?
    requires Fetch(net, Prepare(s, endpoint, opts)).response.status == 401
    ensures Request(s, endpoint, opts, net).outcome == Returned(Undefined)
    ensures Request(s, endpoint, opts, net).state == s
  {
  }

  // ---------------------------------------------------------------------
  // Uploads and classification

  /** The options `uploadFile` passes to `request`: the raw file as body and,
      only with a token, the upload headers. */
  function UploadOptions(s: ClientState, file: File): (o: Options)
    ensures o.verb == "POST" && o.body == FileBody(file) && o.auth == None
    ensures JsTruthy(s.token) ==>
              && "Content-Type" in o.headers && o.headers["Content-Type"] == "application/octet-stream"
              && "X-File-Name" in o.headers && o.headers["X-File-Name"] == file.name
    ensures !JsTruthy(s.token) ==> o.headers == map[]
  {
    var headers := if JsTruthy(s.token)
                   then map["Authorization" := Bearer(s), "Content-Type" := "application/octet-stream",
                            "X-File-Name" := file.name]
                   else map[];
    Options("POST", FileBody(file), headers, None)
  }

  /** `uploadFile(endpoint, file)`: the raw file is sent, labelled as a byte
      stream with its name when a token is held and as JSON otherwise. */
  function UploadFile(s: ClientState, endpoint: string, file: File, net: Network): (r: Step<Envelope>)
    ensures r.state == s && r.sent.body == FileBody(file) && r.sent.verb == "POST"
    ensures JsTruthy(s.token) ==>
              && "Content-Type" in r.sent.headers && "X-File-Name" in r.sent.headers
              && "Authorization" in r.sent.headers
              && r.sent.headers["Content-Type"] == "application/octet-stream"
              && r.sent.headers["X-File-Name"] == file.name
              && r.sent.headers["Authorization"] == Bearer(s)
    ensures !JsTruthy(s.token) ==>
              && "Content-Type" in r.sent.headers
              && r.sent.headers["Content-Type"] == JsonContentType
              && "X-File-Name" !in r.sent.headers && "Authorization" !in r.sent.headers
    ensures r.outcome == Resolve(Fetch(net, r.sent))
  {
    Request(s, endpoint, UploadOptions(s, file), net)
  }

  /** The headers of an upload from a client holding a token. */
  lemma UploadHeadersWithToken(s: ClientState, endpoint: string, file: File, net: Network)
    requires JsTruthy(s.token)
    ensures UploadFile(s, endpoint, file, net).sent.headers
            == map["Content-Type" := "application/octet-stream", "X-File-Name" := file.name,
                   "Authorization" := Bearer(s), "Origin" := OriginValue]
  {
    var h := UploadFile(s, endpoint, file, net).sent.headers;
    assert h.Keys == {"Content-Type", "X-File-Name", "Authorization", "Origin"} by {
      assert UploadOptions(s, file).headers.Keys == {"Authorization", "Content-Type", "X-File-Name"};
    }
  }

  /** The headers of an upload from a client without a token. */
  lemma UploadHeadersWithoutToken(s: ClientState, endpoint: string, file: File, net: Network)
    requires !JsTruthy(s.token)
    ensures UploadFile(s, endpoint, file, net).sent.headers == map["Content-Type" := JsonContentType]
  {
  }

  /** Fetch sends an upload unless the file name or the bearer header holds
      a character above U+00FF: the other header values are fixed ASCII. */
  lemma UploadHeadersAreByteStrings(s: ClientState, endpoint: string, file: File, net: Network)
    ensures var sent := UploadFile(s, endpoint, file, net).sent;
            && (!JsTruthy(s.token) ==> ByteStringHeaders(sent))
            && (JsTruthy(s.token) ==> (ByteStringHeaders(sent) <==> Latin1(file.name) && Latin1(Bearer(s))))
  {
    if JsTruthy(s.token) {
      UploadHeadersWithToken(s, endpoint, file, net);
      FourByteStrings("application/octet-stream", file.name, Bearer(s), OriginValue);
    } else {
      UploadHeadersWithoutToken(s, endpoint, file, net);
      OneByteString(JsonContentType);
    }
  }

  lemma OneByteString(a: string)
    requires a == JsonContentType
    ensures ByteStrings(map["Content-Type" := a])
  {
  }

  lemma FourByteStrings(a: string, b: string, c: string, d: string)
    requires a == "application/octet-stream" && d == OriginValue
    ensures ByteStrings(map["Content-Type" := a, "X-File-Name" := b, "Authorization" := c, "Origin" := d])
            <==> Latin1(b) && Latin1(c)
  {
    var h := map["Content-Type" := a, "X-File-Name" := b, "Authorization" := c, "Origin" := d];
    assert Latin1(a) && Latin1(d);
    assert h["X-File-Name"] == b && h["Authorization"] == c;
  }

  /** The `save_result` / `send_alerts` flags: true unless the option is
      exactly `false`. They are only added to a form that is never sent. */
  function ClassifyFlags(options: map<string, Value>): (r: (bool, bool))
    ensures r.0 <==> !("saveResult" in options && options["saveResult"] == Bool(false))
    ensures r.1 <==> !("sendAlerts" in options && options["sendAlerts"] == Bool(false))
  {
    (Member(Obj(options), "saveResult") != Some(Bool(false)),
     Member(Obj(options), "sendAlerts") != Some(Bool(false)))
  }

  /** `classifyImage(file, options)`. */
  function ClassifyImage(s: ClientState, file: File, options: map<string, Value>, net: Network): (r: Step<Value>)
    ensures r.state == s && r.sent.url == s.baseUrl + "/classify-image" && r.sent.body == FileBody(file)
    ensures Fetch(net, r.sent).Delivered? && Fetch(net, r.sent).response.status == 401 ==> r.outcome == Threw(TypeError)
    ensures Fetch(net, r.sent).Delivered? && Fetch(net, r.sent).response.status != 401 && Fetch(net, r.sent).response.json.Some?
            ==> r.outcome == Returned(Fetch(net, r.sent).response.json.value)
    ensures Fetch(net, r.sent).Failed? ==> r.outcome == Threw(Fetch(net, r.sent).error)
  {
    var _ := ClassifyFlags(options);
    DataOf(UploadFile(s, "/classify-image", file, net))
  }

  /** The options passed to `classifyImage` never reach the request: the
      call is the plain upload to the classification endpoint. */
  lemma ClassifyOptionsIgnored(s: ClientState, file: File, options: map<string, Value>,
                               other: map<string, Value>, net: Network)
    ensures ClassifyImage(s, file, options, net) == ClassifyImage(s, file, other, net)
    ensures ClassifyImage(s, file, options, net) == DataOf(UploadFile(s, "/classify-image", file, net))
  {
  }

  // ---------------------------------------------------------------------
  // Query strings

  /** An object's entries in enumeration order. */
  type Entries = seq<(string, string)>

  /** The keys in use. */
  function Keys(e: Entries): set<string> {
    if |e| == 0 then {} else {e[0].0} + Keys(e[1..])
  }

  /** No key appears twice, as in any object's entry list. */
  predicate DistinctKeys(e: Entries) {
    |e| == 0 || (e[0].0 !in Keys(e[1..]) && DistinctKeys(e[1..]))
  }

  /** The value under `key`, if any. */
  function Lookup(e: Entries, key: string): Option<string> {
    if |e| == 0 then None
    else if e[0].0 == key then Some(e[0].1)
    else Lookup(e[1..], key)
  }

  /** Assigning one property: an existing key keeps its place and takes the
      new value, a new key goes last. */
  function Assign(e: Entries, key: string, value: string): (r: Entries)
    requires DistinctKeys(e)
    ensures DistinctKeys(r) && Keys(r) == Keys(e) + {key}
    ensures Lookup(r, key) == Some(value)
    ensures forall k :: k != key ==> Lookup(r, k) == Lookup(e, k)
    ensures |e| <= |r| && forall i :: 0 <= i < |e| ==> r[i].0 == e[i].0
  {
    if |e| == 0 then [(key, value)]
    else if e[0].0 == key then
      [(key, value)] + e[1..]
    else
      var rest := Assign(e[1..], key, value);
      assert ([e[0]] + rest)[1..] == rest;
      [e[0]] + rest
  }

  lemma {:induction false} LookupAbsent(e: Entries, key: string)
    requires key !in Keys(e)
    ensures Lookup(e, key) == None
  {
    if |e| > 0 {
      LookupAbsent(e[1..], key);
    }
  }

  /** `{...base, ...extra}`. */
  function Spread(base: Entries, extra: Entries): (r: Entries)
    requires DistinctKeys(base) && DistinctKeys(extra)
    ensures DistinctKeys(r) && Keys(r) == Keys(base) + Keys(extra)
    ensures forall k :: k in Keys(extra) ==> Lookup(r, k) == Lookup(extra, k)
    ensures forall k :: k !in Keys(extra) ==> Lookup(r, k) == Lookup(base, k)
    ensures |base| <= |r| && forall i :: 0 <= i < |base| ==> r[i].0 == base[i].0
    decreases |extra|
  {
    if |extra| == 0 then base
    else
      var next := Assign(base, extra[0].0, extra[0].1);
      var rest := extra[1..];
      LookupAbsent(rest, extra[0].0);
      Spread(next, rest)
  }

  /** The parameters of a classification-history query: page and limit
      first, then the filters, whose keys override page and limit. */
  function HistoryParams(page: int, limit: int, filters: Entries): (r: Entries)
    requires DistinctKeys(filters)
    ensures DistinctKeys(r) && Keys(r) == {"page", "limit"} + Keys(filters)
    ensures r[0].0 == "page" && r[1].0 == "limit"
    ensures forall k :: k in Keys(filters) ==> Lookup(r, k) == Lookup(filters, k)
    ensures "page" !in Keys(filters) ==> Lookup(r, "page") == Some(IntToString(page))
    ensures "limit" !in Keys(filters) ==> Lookup(r, "limit") == Some(IntToString(limit))
  {
    var base := [("page", IntToString(page)), ("limit", IntToString(limit))];
    assert Lookup(base[1..], "limit") == Some(IntToString(limit));
    Spread(base, filters)
  }

  /** `key=value` pairs joined by `&`. */
  function QueryString(e: Entries): string {
    Join(seq(|e|, i requires 0 <= i < |e| => e[i].0 + "=" + e[i].1), "&")
  }

  /** `getClassificationHistory(page, limit, filters)`. */
  function GetClassificationHistory(s: ClientState, page: int, limit: int, filters: Entries, net: Network): (r: Step<Value>)
    requires DistinctKeys(filters)
    ensures r.state == s && r.sent.verb == "GET"
    ensures r.sent.url == s.baseUrl + "/classification-history?" + QueryString(HistoryParams(page, limit, filters))
    ensures Fetch(net, r.sent).Delivered? && Fetch(net, r.sent).response.status == 401 ==> r.outcome == Threw(TypeError)
    ensures Fetch(net, r.sent).Delivered? && Fetch(net, r.sent).response.status != 401 && Fetch(net, r.sent).response.json.Some?
            ==> r.outcome == Returned(Fetch(net, r.sent).response.json.value)
    ensures Fetch(net, r.sent).Failed? ==> r.outcome == Threw(Fetch(net, r.sent).error)
  {
    DataOf(Get(s, "/classification-history?" + QueryString(HistoryParams(page, limit, filters)), NoOptions, net))
  }

  /** `getNotifications(unreadOnly)`. */
  function GetNotifications(s: ClientState, unreadOnly: Value, net: Network): (r: Step<Value>)
    ensures r.state == s && r.sent.verb == "GET"
    ensures JsTruthy(unreadOnly) ==> r.sent.url == s.baseUrl + "/notifications?unread_only=true"
    ensures !JsTruthy(unreadOnly) ==> r.sent.url == s.baseUrl + "/notifications"
    ensures Fetch(net, r.sent).Delivered? && Fetch(net, r.sent).response.status == 401 ==> r.outcome == Threw(TypeError)
    ensures Fetch(net, r.sent).Delivered? && Fetch(net, r.sent).response.status != 401 && Fetch(net, r.sent).response.json.Some?
            ==> r.outcome == Returned(Fetch(net, r.sent).response.json.value)
    ensures Fetch(net, r.sent).Failed? ==> r.outcome == Threw(Fetch(net, r.sent).error)
  {
    var endpoint := if JsTruthy(unreadOnly) then "/notifications?unread_only=true" else "/notifications";
    DataOf(Get(s, endpoint, NoOptions, net))
  }

  /** The unread filter only appends a query to the notifications URL;
      headers, verb and body are the same either way. */
  lemma NotificationsFilterOnlyAppendsQuery(s: ClientState, unread: Value, all: Value, net: Network)
    requires JsTruthy(unread) && !JsTruthy(all)
    ensures var a := GetNotifications(s, all, net).sent;
            GetNotifications(s, unread, net).sent == a.(url := a.url + "?unread_only=true")
  {
    var unreadEndpoint: string := "/notifications?unread_only=true";
    var allEndpoint: string := "/notifications";
    assert unreadEndpoint == allEndpoint + "?unread_only=true";
    assert s.baseUrl + unreadEndpoint == (s.baseUrl + allEndpoint) + "?unread_only=true";
  }

  // ---------------------------------------------------------------------
  // Export

  /** `exportData(format)`: bypasses `request`; a non-2xx status throws and
      a 2xx status yields the raw payload unchanged. */
  function ExportData(s: ClientState, format: string, net: Network): (r: Step<seq<bv8>>)
    ensures r.state == s && r.sent.url == s.baseUrl + "/export-data?format=" + format
    ensures r.sent.headers == GetHeaders(s, true)
    ensures Fetch(net, r.sent).Failed? ==> r.outcome == Threw(Fetch(net, r.sent).error)
    ensures Fetch(net, r.sent).Delivered? ==>
              (r.outcome.Returned? <==> 200 <= Fetch(net, r.sent).response.status <= 299)
              && (r.outcome.Returned? ==> r.outcome.value == Fetch(net, r.sent).response.bytes)
              && (r.outcome.Threw? ==> r.outcome.error == ExportFailed)
  {
    var sent := Outgoing(s.baseUrl + "/export-data?format=" + format, "GET", GetHeaders(s, true), NoBody);
    match Fetch(net, sent)
    case Failed(e) => Step(s, sent, Threw(e))
    case Delivered(response) =>
      if 200 <= response.status <= 299 then Step(s, sent, Returned(response.bytes))
      else Step(s, sent, Threw(ExportFailed))
  }

  /** The export sends the credentials every other call sends through
      `request`: the same headers, less the `Origin` that only `request` adds. */
  lemma ExportHeadersMatchRequest(s: ClientState, format: string, net: Network)
    ensures var sent := ExportData(s, format, net).sent;
            var viaRequest := Prepare(s, "/export-data?format=" + format, NoOptions);
            sent.url == viaRequest.url && sent.verb == viaRequest.verb
            && sent.headers == viaRequest.headers - {"Origin"}
  {
  }
}

=== FILE: common.dfy ===
/** Generic helpers shared by the backend and the browser-client models:
    an Option type, "first row matching" and "keep matching rows" over
    sequences, and the few string operations the sources rely on. */
module Common {

  datatype Option<T> = None | Some(value: T) {
    /** The held value, or `default` when there is none (`x or default`). */
    function GetOr(default: T): T {
      if Some? then value else default
    }
  }

  /** Position of the first element satisfying `p`; this is what a
      query's `.first()` returns over rows kept in insertion order. */
  function FirstIndex<T>(s: seq<T>, p: T -> bool): (r: Option<nat>)
    ensures r.Some? ==> r.value < |s| && p(s[r.value])
    ensures r.Some? ==> forall j :: 0 <= j < r.value ==> !p(s[j])
    ensures r.None? ==> forall j :: 0 <= j < |s| ==> !p(s[j])
  {
    if |s| == 0 then None
    else if p(s[0]) then Some(0)
    else match FirstIndex(s[1..], p)
      case None => None
      case Some(i) => Some(i + 1)
  }

  /** The elements of `s` satisfying `p`, in their original order. */
  function Filter<T(!new)>(s: seq<T>, p: T -> bool): (r: seq<T>)
    ensures |r| <= |s|
    ensures forall x :: x in r <==> x in s && p(x)
  {
    if |s| == 0 then []
    else (if p(s[0]) then [s[0]] else []) + Filter(s[1..], p)
  }

  /** Prepending an element and its image keeps two sequences paired by `f`. */
  lemma PairedCons<A, B>(x: A, xs: seq<A>, ys: seq<B>, f: A -> B)
    requires |ys| == |xs| && forall i :: 0 <= i < |ys| ==> ys[i] == f(xs[i])
    ensures forall i :: 0 <= i < |xs| + 1 ==> ([f(x)] + ys)[i] == f(([x] + xs)[i])
  {
    forall i | 0 < i < |xs| + 1 ensures ([f(x)] + ys)[i] == f(([x] + xs)[i]) {
      assert ([f(x)] + ys)[i] == ys[i - 1] && ([x] + xs)[i] == xs[i - 1];
    }
  }

  /** Filtering keeps something exactly when some element passes. */
  lemma {:induction false} FilterNonEmpty<T(!new)>(s: seq<T>, p: T -> bool)
    ensures |Filter(s, p)| > 0 <==> exists i :: 0 <= i < |s| && p(s[i])
  {
    if exists i :: 0 <= i < |s| && p(s[i]) {
      var i :| 0 <= i < |s| && p(s[i]);
      assert s[i] in Filter(s, p);
    }
    if |Filter(s, p)| > 0 {
      assert Filter(s, p)[0] in Filter(s, p);
    }
  }

  // ---------------------------------------------------------------------
  // Strings

  /** Position of the last occurrence of `c` in `s`. */
  function LastIndexOf(s: string, c: char): (r: Option<nat>)
    ensures r.None? <==> c !in s
    ensures r.Some? ==> r.value < |s| && s[r.value] == c && c !in s[r.value + 1..]
  {
    if |s| == 0 then None
    else if s[|s| - 1] == c then Some(|s| - 1)
    else
      var r := LastIndexOf(s[..|s| - 1], c);
      assert s == s[..|s| - 1] + [s[|s| - 1]];
      r
  }

  /** Lower-cases ASCII letters and leaves every other character alone. */
  function LowerChar(c: char): char {
    if 'A' <= c <= 'Z' then (c as int + 32) as char else c
  }

  function ToLower(s: string): (r: string)
    ensures |r| == |s|
    ensures forall i :: 0 <= i < |s| ==> r[i] == LowerChar(s[i])
  {
    seq(|s|, i requires 0 <= i < |s| => LowerChar(s[i]))
  }

  /** Python's `sub in s` on two strings: `sub` occurs contiguously in `s`. */
  predicate IsInfix(sub: string, s: string)
    decreases |s|
  {
    (|sub| <= |s| && s[..|sub|] == sub) || (|s| > 0 && IsInfix(sub, s[1..]))
  }

  /** `parts` joined by `sep` (JavaScript `Array.prototype.join`). */
  function Join(parts: seq<string>, sep: string): string {
    if |parts| == 0 then ""
    else if |parts| == 1 then parts[0]
    else parts[0] + sep + Join(parts[1..], sep)
  }

  function Digit(d: nat): char
    requires d < 10
  {
    "0123456789"[d]
  }

  function DigitValue(c: char): nat {
    if '0' <= c <= '9' then c as nat - '0' as nat else 0
  }

  /** Decimal text of a natural number, without leading zeros. */
  function NatToString(n: nat): (r: string)
    ensures |r| > 0
    ensures forall i :: 0 <= i < |r| ==> '0' <= r[i] <= '9'
    ensures |r| > 1 ==> r[0] != '0'
  {
    if n < 10 then [Digit(n)] else NatToString(n / 10) + [Digit(n % 10)]
  }

  /** Reads back a string of decimal digits. */
  function ParseNat(s: string): nat {
    if |s| == 0 then 0 else ParseNat(s[..|s| - 1]) * 10 + DigitValue(s[|s| - 1])
  }

  /** Number-to-text conversion (`n.toString()`, template literals) for
      integral numbers. */
  function IntToString(i: int): (r: string)
    ensures |r| > 0
    ensures i < 0 <==> r[0] == '-'
  {
    if i < 0 then "-" + NatToString(-i) else NatToString(i)
  }

  /** The decimal text reads back as the number it was made from. */
  lemma {:induction false} NatToStringRoundTrip(n: nat)
    ensures ParseNat(NatToString(n)) == n
  {
    if n >= 10 {
      var s := NatToString(n / 10);
      NatToStringRoundTrip(n / 10);
      assert (s + [Digit(n % 10)])[..|s|] == s;
    }
  }
}

=== FILE: json.dfy ===
/** Decoded JSON values as both halves of the system see them: the backend
    reads request bodies and settings rows as Python objects, the browser
    client reads response bodies as JavaScript objects. Numbers are
    integral; fractional numbers are not part of this model. */
module Json {
  import opened Common

  datatype Value =
    | Null
    | Bool(b: bool)
    | Num(n: int)
    | Str(s: string)
    | Arr(items: seq<Value>)
    | Obj(fields: map<string, Value>)

  /** Python truthiness (`if x:` / `not x`). */
  predicate PyTruthy(v: Value) {
    match v
    case Null => false
    case Bool(b) => b
    case Num(n) => n != 0
    case Str(s) => s != ""
    case Arr(items) => items != []
    case Obj(fields) => fields != map[]
  }

  /** Python truthiness of an optional value; `None` is Python's `None`. */
  predicate PyTruthyOpt(v: Option<Value>) {
    v.Some? && PyTruthy(v.value)
  }

  /** Python's `d.get(key, default)`. */
  function PyGet(d: map<string, Value>, key: string, default: Value): Value {
    if key in d then d[key] else default
  }

  /** Python's `d.get(key)`: a missing key reads as `None`. */
  function PyGetOrNone(d: map<string, Value>, key: string): Value {
    PyGet(d, key, Null)
  }

  /** A "whitelisted update": every key of `allowed` present in `request`
      overwrites `row`; nothing else changes (the `for field in
      updatable_fields: if field in data: setattr(...)` loops). */
  function UpdateWhitelisted(row: map<string, Value>, request: map<string, Value>, allowed: set<string>): (r: map<string, Value>)
    ensures r.Keys == row.Keys + (request.Keys * allowed)
    ensures forall k :: k in request && k in allowed ==> r[k] == request[k]
    ensures forall k :: k in row && !(k in request && k in allowed) ==> r[k] == row[k]
  {
    map k | k in row.Keys + (request.Keys * allowed) ::
      if k in request && k in allowed then request[k] else row[k]
  }

  // ---------------------------------------------------------------------
  // JavaScript view. `Option<Value>` is a property read: `None` is `undefined`.

  /** JavaScript truthiness. Empty arrays and objects are truthy, unlike Python. */
  predicate JsTruthy(v: Value) {
    match v
    case Null => false
    case Bool(b) => b
    case Num(n) => n != 0
    case Str(s) => s != ""
    case Arr(_) => true
    case Obj(_) => true
  }

  /** Truthiness of a property read, where `undefined` is falsy. */
  predicate JsTruthyOpt(v: Option<Value>) {
    v.Some? && JsTruthy(v.value)
  }

  /** Reading a property of `null` or `undefined` throws a TypeError. */
  predicate IsNullish(v: Option<Value>) {
    v.None? || v.value.Null?
  }

  /** `v.key` on a non-nullish value: own property of an object; primitives
      and arrays have none of the names this client reads. */
  function Member(v: Value, key: string): (r: Option<Value>)
    ensures r.Some? <==> v.Obj? && key in v.fields
  {
    if v.Obj? && key in v.fields then Some(v.fields[key]) else None
  }

  /** `String(v)`, which is also what `localStorage.setItem` and template
      literals apply to their argument. */
  function ToJsString(v: Value): string {
    match v
    case Null => "null"
    case Bool(b) => if b then "true" else "false"
    case Num(n) => IntToString(n)
    case Str(s) => s
    case Arr(items) =>
      // Array.prototype.join renders null elements as empty text
      Join(seq(|items|, i requires 0 <= i < |items| =>
             if items[i].Null? then "" else ToJsString(items[i])), ",")
    case Obj(_) => "[object Object]"
  }

  /** `String(x)` of a property read; `undefined` becomes the text "undefined". */
  function ToJsStringOpt(v: Option<Value>): string {
    if v.None? then "undefined" else ToJsString(v.value)
  }
}

=== FILE: session.dfy ===
/** The client and the backend together: what an upload the client builds
    makes the classification handler do. The caller's identity, which the
    backend reads from the bearer token, stays a parameter. */
module Session {
  import opened Common
  import opened Json
  import Client
  import Backend
  import Alerts

  /** The `X-File-Name` header as the backend reads it; `None` when absent. */
  function FileNameHeader(o: Client.Outgoing): (r: Option<string>)
    ensures r.Some? <==> "X-File-Name" in o.headers
    ensures r.Some? ==> r.value == o.headers["X-File-Name"]
  {
    if "X-File-Name" in o.headers then Some(o.headers["X-File-Name"]) else None
  }

  /** The raw request body the backend receives. */
  function UploadedBytes(o: Client.Outgoing): (r: seq<bv8>)
    ensures o.body.FileBody? ==> r == o.body.file.bytes
    ensures o.body.NoBody? ==> r == []
  {
    match o.body
    case FileBody(file) => file.bytes
    case _ => []
  }

  /** The classification route: its token gate answers 401 to a request
      without an Authorization header before the handler runs. Whether a
      header's token is valid, and which account it names, is not modelled:
      `identity` stands for that account's id. */
  function ClassifyRoute(st: Backend.Store, identity: int, sent: Client.Outgoing, secure: string -> string,
                         results: seq<Alerts.Result>, send: Alerts.EmailSender): (r: Backend.Reply)
    ensures "Authorization" !in sent.headers ==> r.status == 401 && r.store == st
    ensures "Authorization" in sent.headers ==>
              r == Backend.ClassifyImage(st, identity, UploadedBytes(sent), FileNameHeader(sent), secure, results, send)
  {
    if "Authorization" !in sent.headers then Backend.Fail(401, st)
    else Backend.ClassifyImage(st, identity, UploadedBytes(sent), FileNameHeader(sent), secure, results, send)
  }

  /** An upload from a client holding a token carries the file's bytes and
      name. Fetch sends it only when every header value is a byte string, so
      a file name or token with a character above U+00FF makes the upload
      throw a TypeError and the backend never sees it. Once sent, the backend
      accepts it exactly when the account exists, the file has an acceptable
      size and the sanitised name of the file has an allowed extension.
      Without a token the upload carries no credentials and the route
      refuses it with 401, changing nothing. */
  lemma UploadReachesClassifier(s: Client.ClientState, file: Client.File, net: Client.Network,
                                st: Backend.Store, identity: int, secure: string -> string,
                                results: seq<Alerts.Result>, send: Alerts.EmailSender)
    ensures var step := Client.UploadFile(s, "/classify-image", file, net);
            var sent := step.sent;
            var r := ClassifyRoute(st, identity, sent, secure, results, send);
            && UploadedBytes(sent) == file.bytes
            && (!JsTruthy(s.token) ==>
                  && Client.Fetch(net, sent) == net(sent)
                  && r.status == 401 && r.store == st)
            && (JsTruthy(s.token) ==>
                  && FileNameHeader(sent) == Some(file.name)
                  && (Client.ByteStringHeaders(sent) <==>
                        Client.Latin1(file.name) && Client.Latin1(Client.Bearer(s)))
                  && (!Client.ByteStringHeaders(sent) ==> step.outcome == Client.Threw(Client.TypeError))
                  && (Client.ByteStringHeaders(sent) ==>
                        && Client.Fetch(net, sent) == net(sent)
                        && (r.status == 200 <==>
                              Backend.UserAt(st, identity).Some? && 0 < |file.bytes| <= Backend.MaxFileSize
                              && Backend.AllowedFile(secure(file.name)))))
  {
    Client.UploadHeadersAreByteStrings(s, "/classify-image", file, net);
  }
}
